=== FILE: README.md ===
# BreaksTable core, modelled in Dafny

BreaksTable is a small web application where users book break slots on a
shared grid of hours. This project models the parts of it that make
decisions, each as pure functions over immutable values, and proves what
those decisions guarantee:

- **The push-key decoder and the push client** (`base64url.dfy`,
  `push_client.dfy`). `urlBase64ToUint8Array` pads a base64url key,
  translates it to the standard alphabet and decodes it the way `atob` does.
  It is modelled against an RFC 4648 encoder: decoding the unpadded url-safe
  encoding (section 5 of RFC 4648) of any byte string gives the bytes back,
  and a key whose length is 1 more than a multiple of 4 is always rejected.
  Around it sit the guards of `subscribe`, the status line chosen from the
  server's answer, `unsubscribe`, and the status shown on page load.
- **The grid page's decisions** (`js_text.dfy`, `dashboard.dfy`). These are
  `isHHMM`, the cell, admin-button and hour-button handlers, the top-bar
  buttons, and the dispatch of a grid click. Attributes and prompt answers
  are inputs; the chosen request, alert or nothing is the output. `trim` and
  `toLowerCase` are modelled in `js_text.dfy`.
- **The account store** (`user_store.dfy`). These are the `users` and
  `password_resets` tables and their six statements, plus the column step of
  `ensureSchema`.
- **The account handlers** (`auth_server.dfy`). These are POST `/login`,
  `/register` and `/forgot`, and GET/POST `/reset/:token`, each a transition
  on the store. Also included: the route guards and the two protected pages
  (`guards.dfy`), and the administrator bootstrap script
  (`admin_bootstrap.dfy`).
- **The push tables** (`push_store.dfy`). This covers the subscription
  upsert and delete, the user's subscriptions, the due-reminder selection
  (an anti-join against the reminder log), the reminder log, and the purge
  of subscriptions reported gone.

Outside inputs are parameters:

- bcrypt is a hash the caller supplies, plus a `matches` relation for
  `bcrypt.compare`;
- `nanoid` is the drawn token;
- the clock is an integer time in milliseconds;
- the email validator is an `isEmail` function;
- browser facts and user answers are plain inputs.

Two things about the code shape the model:

- **No reservation engine on the server.** The grid page posts to
  `/reserve`, `/unreserve`, `/admin/slots/...` and `/admin/hours/...`
  (`public/dashboard.js:74`, `:78`, `:97`, `:131`), but `server.js` never
  defines those routes, so the requests reach its 404 handler
  (`server.js:229`). `src/db.js` creates only `users` and `password_resets`.
  The model covers the choice of request on the page; the reservation and
  slot tables appear only as the relations the reminder query reads.
- **`isHHMM` is purely syntactic.** It is `^[0-2]\d:\d{2}$` on the trimmed
  text, so it accepts "25:00" and "29:99" (`Dashboard.IsHHMMExamples`).

## Model

| member | source | states |
|---|---|---|
| `Base64Url.StdValue` | public/push.js:18 | Only a character of the standard alphabet (section 4 of RFC 4648) has a 6-bit value, and that value maps back to the character |
| `Base64Url.StdValueOfStdChar` | public/push.js:18 | Every alphabet character's value is the digit it encodes |
| `Base64Url.PadCount` | public/push.js:16 | `(4 - len % 4) % 4` is at most 3, is 0 exactly when the length is a multiple of 4, and brings the length to a multiple of 4 |
| `Base64Url.Pad` | public/push.js:16-17 | The padded key keeps the key as its prefix, adds at most three characters, all `=`, and has a length that is a multiple of 4 |
| `Base64Url.ReplaceAll` | public/push.js:17 | A global replace keeps the length and changes exactly the occurrences of the one character |
| `Base64Url.ToStandard` | public/push.js:17 | Every `-` becomes `+` and every `_` becomes `/`; all other characters and the length are kept, and no `-` or `_` remains |
| `Base64Url.Atob` | public/push.js:18 | `atob` succeeds exactly when strict RFC 4648 decoding does, and returns one character per decoded byte, with that byte as its code |
| `Base64Url.Widen` | public/push.js:18-19 | The output array has the decoded string's length, and every char code below 256 is copied unchanged |
| `Base64Url.UrlBase64ToUint8Array` | public/push.js:15-20 | The loop fills exactly `rawData.length` entries, entry i being the i-th character code; the method fails exactly when `atob` throws |
| `Base64Url.DecodeEncodeStd` | public/push.js:18 | `atob` inverts standard padded base64 encoding, for every byte string |
| `Base64Url.PadTranslate` | public/push.js:16-17 | Padding and translating the unpadded url-safe encoding of any bytes gives their standard padded encoding |
| `Base64Url.WidenBinary` | public/push.js:19 | Widening a string whose codes are bytes returns those bytes |
| `Base64Url.DecodeKeyRoundTrip` | public/push.js:15-20 | Decoding the unpadded base64url encoding of any byte string returns that byte string |
| `Base64Url.DecodeStdRejectsTriplePad` | public/push.js:18 | Base64 text with three `=` in its last quartet never decodes |
| `Base64Url.DecodeKeyRejectsLengthOneModFour` | public/push.js:16-18 | A key of length 1 mod 4 gets three `=` and always fails to decode |
| `PushClient.FailureStatus` | public/push.js:50-58 | Every refused status maps to exactly one message: 401/302 to re-login, 403 to CSRF, 404 to the missing route, any other to a server error carrying the code |
| `PushClient.Subscribe` | public/push.js:22-67 | The subscription is posted exactly when a non-empty key exists, `Notification` exists, permission is `granted`, service workers exist and the key decodes. A missing key, a missing `Notification`, a refused permission, missing service workers or a key that does not decode each sends nothing and shows its own status, and success is shown only after a posted request. A rejected request shows the network error; otherwise the answer's status picks the message |
| `PushClient.Unsubscribe` | public/push.js:69-87 | Without the service-worker API, or when the registration or subscription lookup rejects, nothing is posted and the error status is shown; otherwise the endpoint is posted exactly when a registration and a subscription exist, and the status ends as disabled |
| `PushClient.InitialStatus` | public/push.js:93-101 | On load the status is active exactly when the browser supports push, a key exists and a subscription exists; unsupported exactly when Notification or service workers are missing; the missing-key message exactly for a supporting browser without a key; inactive exactly when there is a key but no registration or no subscription |
| `PushClient.SubscribeNeverSendsMalformedKey` | public/push.js:16-31 | No subscription is posted for a key of length 1 mod 4 |
| `JsText.LeadingSpace` | public/dashboard.js:38 | Counts the whitespace prefix: everything before it is whitespace and the next character is not |
| `JsText.TrailingStart` | public/dashboard.js:38 | Finds where the whitespace suffix starts: everything after it is whitespace and the character before it is not |
| `JsText.Trim` | public/dashboard.js:38 | `trim` never lengthens its input and leaves no whitespace at either end |
| `JsText.TrimOfPadded` | public/dashboard.js:38 | Text surrounded only by whitespace, with non-space ends, is exactly what `trim` returns |
| `JsText.TrimIsPadded` | public/dashboard.js:38 | Whatever `trim` returns sits in its input between a whitespace prefix and a whitespace suffix |
| `JsText.ToLower` | server.js:84 | `toLowerCase` keeps the length and lowercases each character |
| `JsText.ToLowerIdempotent` | server.js:84 | Lowercasing twice is lowercasing once |
| `Dashboard.IsHHMMIsPaddedHour` | public/dashboard.js:37-39 | `isHHMM` holds exactly of whitespace, one `[0-2]\d:\d\d` shape, then whitespace |
| `Dashboard.IsHHMMExamples` | public/dashboard.js:37-39 | "09:15" and " 09:15 " pass, "25:00" and "29:99" pass, "9:15", "09:1" and "30:00" fail |
| `Dashboard.ToNumber` | public/dashboard.js:69 | `Number` of digits (around whitespace) is their decimal value; NaN only when the trimmed text holds a non-digit |
| `Dashboard.ToNumberOfDecimal` | public/dashboard.js:69 | `Number` reads back the decimal rendering of every natural number, with or without a minus sign |
| `Dashboard.SlotIdOf` | public/dashboard.js:69 | A missing or empty slot id reads as -1 before `Number` is applied |
| `Dashboard.SlotIdOfRendered` | public/dashboard.js:69 | A slot id rendered in decimal reads back as itself, and is accepted exactly when it is positive |
| `Dashboard.UserCellClick` | public/dashboard.js:62-85 | Clicks on controls or on a cell without a positive slot id do nothing; one's own cell is unreserved; otherwise a reservation is sent exactly when the slot is open and free, and a closed or taken slot gets its alert |
| `Dashboard.AdminActionClick` | public/dashboard.js:88-116 | Only clear, close, open and label send, always for the cell's positive slot id, and for such a cell each of them does send: clear clears, close sends inactive, open sends active, and an answered label prompt sends the trimmed label; a cancelled prompt and any other action send nothing |
| `Dashboard.HourAction` | public/dashboard.js:119-144 | A source hour that fails `isHHMM` is refused. For a valid hour, rename sends exactly an `isHHMM` answer, as typed, refuses any other answer and does nothing when cancelled; delete sends exactly when confirmed; other actions do nothing |
| `Dashboard.Role` | public/dashboard.js:4 | A missing or empty role attribute means "user"; any other is the attribute lowercased |
| `Dashboard.AddHourClick` | public/dashboard.js:147-165 | The create-hour request is sent exactly for an admin whose answer passes `isHHMM`; a failing answer is refused with an alert; a non-admin click or a cancelled prompt does nothing |
| `Dashboard.CleanupClick` | public/dashboard.js:167-179 | The cleanup request is sent exactly for a confirming admin |
| `Dashboard.Dispatch` | public/dashboard.js:183-214 | Admins get hour buttons first and then admin buttons; only non-admins get cell clicks |
| `Dashboard.GridClick` | public/dashboard.js:183-214 | A non-admin click can only reserve or unreserve, and an admin click never does; a non-admin click outside any cell does nothing, and one on a free, open cell with a positive id reserves that cell; an admin click goes to the hour-button handler when on an hour button, otherwise to the admin-button handler when on an admin button, and otherwise does nothing |
| `UserStore.FindEmail` | src/db.js:74-76 | The scan returns the first row with that exact email, or reports that there is none |
| `UserStore.FindToken` | src/db.js:98-100 | The scan returns a row with that exact token, or reports that there is none |
| `UserStore.UserByEmail` | src/db.js:73-79 | The lookup finds a row exactly when some user has that exact email (no case folding), and returns such a row |
| `UserStore.ResetByToken` | src/db.js:97-103 | The lookup finds a row exactly when some reset row has that token, and returns such a row |
| `UserStore.UserByEmailUnique` | src/db.js:34 | With emails unique, the lookup of a stored user's email returns that user |
| `UserStore.ResetByTokenUnique` | src/db.js:42 | With tokens unique, the lookup of a stored token returns its row |
| `UserStore.InsertUser` | src/db.js:81-88 | A duplicate email fails; otherwise exactly one row is appended, with an id no stored user has, and the constraints still hold |
| `UserStore.InsertReset` | src/db.js:90-95 | A duplicate token fails; otherwise exactly one unused row is appended, with the given user, token and expiry |
| `UserStore.SetHash` | src/db.js:106 | The UPDATE changes the hash of the matching rows only |
| `UserStore.UpdateUserPassword` | src/db.js:105-110 | Only `password_hash` of the rows with that id changes; every other field, row and table is kept, and the constraints still hold |
| `UserStore.SetUsed` | src/db.js:113 | The UPDATE sets `used` on the matching rows only |
| `UserStore.MarkResetUsed` | src/db.js:112-117 | Only `used` of the row with that id changes, and it becomes set; everything else is kept |
| `UserStore.MarkResetUsedIdempotent` | src/db.js:112-117 | Marking a row used twice is marking it once |
| `UserStore.AddColumnIfMissing` | src/db.js:51-52 | A column is added only when absent, and is present afterwards |
| `UserStore.EnsureUserColumns` | src/db.js:31-52 | After the schema step both name columns exist, the existing columns are kept in order, and nothing changes when both are there; no column other than `first_name` and `last_name` is ever added, and a new table gets the base columns followed by those two |
| `UserStore.EnsureUserColumnsIdempotent` | src/db.js:50-52 | Running the schema step twice is running it once |
| `Guards.RequireAuth` | src/middleware/auth.js:2-5 | Calls `next` exactly when there is a session user, and otherwise only redirects to `/login` |
| `Guards.RequireRole` | src/middleware/auth.js:7-12 | Calls `next` exactly when the session user holds the role, and otherwise only answers 403, also when no one is signed in |
| `Guards.Then` | server.js:211 | A chain of guards passes exactly when both guards pass, and stops with the first refusal |
| `Guards.DashboardRoute` | server.js:207-209 | The dashboard is served exactly to signed-in users |
| `Guards.AdminRoute` | server.js:211-213 | The admin page is served exactly to admins; anonymous requests go to `/login` and other users get 403 |
| `AuthServer.LoginValidation` | server.js:76-82 | Login input is valid exactly when the email validates and the password has at least 6 characters |
| `AuthServer.SessionFor` | server.js:94-97 | The session carries the stored user's id, email and role, and the stored names, a NULL name becoming "" |
| `AuthServer.Login` | server.js:75-107 | Login never changes the store; it succeeds exactly when the input validates and the lowercased email's account matches the password; every other valid attempt gets the same 401 |
| `AuthServer.LoginFailureRevealsNothing` | server.js:84-87 | A failed login answers the same whether or not the account exists |
| `AuthServer.RegisterValidation` | server.js:115-123 | Registration input is valid exactly when both trimmed names are non-empty, the email validates, the password has at least 6 characters and the confirmation equals it |
| `AuthServer.Register` | server.js:114-152 | A taken lowercased email gets 400 with the store unchanged; otherwise one user is added with role "user", the lowercased email and trimmed names, and is signed in |
| `AuthServer.RegisterThenLogin` | server.js:84-131 | After registering, logging in with the same password and the email in any case signs in as the new account |
| `AuthServer.Forgot` | server.js:159-176 | The answer is the same info whether or not the email is known; a reset row expiring one hour later is stored and mailed only for a known email; a token collision throws |
| `AuthServer.LinkUsableIff` | server.js:181 | A link is usable exactly when some row has the token, has not passed its expiry and is unused |
| `AuthServer.ResetPage` | server.js:178-185 | The form is shown exactly for a usable link; any other link gets 400 |
| `AuthServer.ResetValidation` | server.js:188-189 | Reset input is valid exactly when the password has at least 6 characters and the confirmation equals it |
| `AuthServer.ResetSubmit` | server.js:187-205 | A reset succeeds exactly when the input validates and the link is usable, and then sets the owner's hash and marks the row used |
| `AuthServer.ResetChangesOnlyOwner` | server.js:200-202 | A reset changes the password of the link's owner and of no other user |
| `AuthServer.ResetLinkSingleUse` | server.js:197-202 | After a successful reset the same link is refused at any time, and the store stays as it is |
| `AuthServer.ForgotLinkLifetime` | server.js:170-181 | The mailed link is usable up to and including one hour after the request, and not later |
| `AuthServer.ResetThenLogin` | server.js:84-87 | After a reset, the owner logs in with the new password |
| `AdminBootstrap.Bootstrap` | scripts/init-db.js:10-17 | With the lowercased email taken the store is unchanged; otherwise exactly one admin with that email and the configured names is appended; either way the email has an account afterwards |
| `AdminBootstrap.BootstrapIdempotent` | scripts/init-db.js:10-17 | Running the script twice gives the store of running it once |
| `AdminBootstrap.BootstrapUsesConfigured` | scripts/init-db.js:5-17 | Set, non-empty variables win over the defaults: the new admin has the configured names and the configured email, lowercased |
| `AdminBootstrap.BootstrapDefaults` | scripts/init-db.js:5-8 | With nothing configured the admin is admin@example.com, named Admin User |
| `PushStore.RowOf` | src/push.js:23 | Missing keys store NULL keys, and a missing or empty user agent is stored as NULL |
| `PushStore.SavePushSubscription` | src/push.js:15-26 | The upsert leaves exactly one row for the (user, endpoint) pair, overwrites its columns and keeps every other row |
| `PushStore.RemovePushSubscription` | src/push.js:28-30 | Only the row of that pair is deleted |
| `PushStore.SaveOverwrites` | src/push.js:21-22 | Saving the same pair twice keeps only the second save |
| `PushStore.RemoveIdempotent` | src/push.js:29 | Deleting twice is deleting once |
| `PushStore.RemoveUndoesSave` | src/push.js:19-29 | Deleting a pair undoes saving it |
| `PushStore.GetUserSubscriptions` | src/push.js:32-38 | Returns exactly the user's rows, shaped as endpoint and keys, one per endpoint |
| `PushStore.DueRowsMembers` | src/push.js:50-64 | The selection returns exactly the reservations whose slot is active and carries the target label and whose triple is not logged |
| `PushStore.FindDueReminders` | src/push.js:41-67 | The query returns exactly the due reservations (in reservation order, an order the model picks since the SQL has no ORDER BY), each for the target label and minute and not logged |
| `PushStore.MarkReminderSent` | src/push.js:69-75 | The log afterwards holds exactly the old triples and the new one |
| `PushStore.MarkReminderSentIdempotent` | src/push.js:73 | Logging the same triple twice is logging it once |
| `PushStore.MarkedReminderNotDue` | src/push.js:60-73 | After logging, that user and slot are no longer due for that minute, and every other due row still is |
| `PushStore.GoneCases` | src/push.js:84-85 | A truthy `statusCode` alone decides whether an error is gone, and only a missing, zero or empty one lets `code` decide; only the numbers 404 and 410 count, so 500 masks a 404 `code` and the text "404" is not gone |
| `PushStore.SendPushToUser` | src/push.js:78-93 | Each of the user's subscriptions is attempted exactly once, and nothing else is; a subscription is deleted, for any user, exactly when an attempt for its endpoint failed as gone, so only endpoints the user holds can be deleted; all others are kept unchanged |

## Left out

- The Express wiring: the session store, CSRF, helmet, logging and rate
  limiting (`server.js:24-63`), the GET pages that only render or redirect,
  logout, and the 404 handler. The session `regenerate` and `save`
  callbacks are taken to succeed, so their 500 answers are not modelled.
- Request bodies are strings. A missing field reads as the empty string,
  which the validators treat the same way.
- Persistence of the SQLite file (`save`, `PRAGMA table_info`) and the
  Postgres pool. `src/push.js` imports a `pool` that `src/db.js` does not
  export, so the push tables are modelled as values of their own.
- `created_at` of `password_resets`, which is filled by SQLite's clock and
  never read.
- The mailer (`src/mailer.js`), the service worker (`public/sw.js`), web-push
  delivery and the socket.io reload. Sending mail is an output value and
  its failures are swallowed by the source.
- The time zone arithmetic of `findDueReminders`, which computes "now + 3
  minutes" in Asia/Jerusalem. The target label and the scheduled minute are
  inputs.
- Browser failures of `navigator.serviceWorker.register` and
  `pushManager.subscribe` inside `subscribe`, and the text of the status
  messages (they are named by constructor).
- `PushClient.InitialStatus`: a lookup that rejects on page load is caught
  silently and leaves the status line as rendered; the model has no input
  for it.
- `JsText.ToLower`: lowercases ASCII letters only; JavaScript's
  `toLowerCase` lowercases every script, and `isEmail` accepts non-ASCII
  addresses. So "Äb@x.io" followed by "äb@x.io" is one account in the
  program but two in the model. Unicode case tables are out of scope.
- `AuthServer.ResetSubmit`, `AuthServer.Register`: each handler is one
  atomic step on the store, but the program yields at `await bcrypt.hash`
  between its check and its write (`server.js:196-202` and
  `server.js:126-131`), so two requests can interleave there. Two
  concurrent submissions of one fresh reset link both pass the check and
  both set a password, so `AuthServer.ResetLinkSingleUse` holds only for
  requests that run one after another. Two concurrent registrations of one
  email both pass the lookup, and the second `insertUser` then throws on
  the UNIQUE constraint instead of answering "Email already in use"; in the
  model that throw is the `Crashed` answer, which a single request never
  reaches.
- `AuthServer.LoginValidation`, `AuthServer.RegisterValidation` and
  `AuthServer.ResetValidation`: the minimum password length counts code
  points. The validator library's `isLength` (13.7 and later) counts code
  points too, but leaves out the variation selectors U+FE0E and U+FE0F. So
  a password padded with those selectors can pass here and fail in the
  program.
- `Dashboard.ToNumber`, `Dashboard.SlotIdOf`: `Number(...)` is modelled
  for optionally signed decimal integers only; fractions, exponents,
  hexadecimal and `Infinity` read as NaN, and NaN passes the `slotId <= 0`
  guard (`public/dashboard.js:70`). So for such ids the model decides
  differently from the program. For "1.5", "0x10" or "Infinity" both send,
  but the model sends `Reserve(NaN)` where the program sends the real
  number. For "-1.5", "0.0", "-1e3" or "-Infinity" the program reads a
  value <= 0 and does nothing, while the model sends `Reserve(NaN)`.
- `Base64Url.Atob`: whitespace inside the key is rejected rather than
  skipped. The forgiving-base64 rules of browsers also drop ASCII whitespace
  and accept unpadded input; after the padding step the input is always
  padded, so only whitespace differs.
- The default hour of the add-hour prompt, which is a clock reading; the
  prompt's answer is an input.

=== FILE: admin_bootstrap.dfy ===
/**
  The script that creates the first administrator. The settings come from
  the environment, each falling back to a default when unset or empty; the
  script does nothing when the (lowercased) email already has an account.
 */
module AdminBootstrap {
  import opened Wrappers
  import opened JsText
  import opened UserStore

  const DefaultEmail := "admin@example.com"
  const DefaultFirstName := "Admin"
  const DefaultLastName := "User"

  /** The four environment variables the script reads; None when unset. */
  datatype AdminEnv = AdminEnv(
    email: Option<string>,
    password: Option<string>,
    firstName: Option<string>,
    lastName: Option<string>
  )

  /** `process.env.X || default`: an unset or empty variable gives the default. */
  function Setting(v: Option<string>, default: string): string {
    if v.Some? && v.value != "" then v.value else default
  }

  /** The email the script looks up and stores: the setting, lowercased. */
  function AdminEmail(env: AdminEnv): string {
    ToLower(Setting(env.email, DefaultEmail))
  }

  /** The script: `hash` is bcrypt's hash of the password setting (which
      defaults to "admin123") and `now` the creation time. */
  function Bootstrap(db: Db, env: AdminEnv, hash: Hash, now: int): (r: Db)
    ensures HasEmail(db, AdminEmail(env)) ==> r == db
    ensures !HasEmail(db, AdminEmail(env)) ==>
      && r.resets == db.resets
      && |r.users| == |db.users| + 1
      && r.users[..|db.users|] == db.users
      && var u := r.users[|db.users|];
         && u.email == AdminEmail(env) && u.passwordHash == hash && u.role == "admin"
         && u.firstName == Some(Setting(env.firstName, DefaultFirstName))
         && u.lastName == Some(Setting(env.lastName, DefaultLastName))
    ensures Valid(db) ==> Valid(r)
    ensures HasEmail(r, AdminEmail(env))
  {
    var email := AdminEmail(env);
    if UserByEmail(db, email).Some? then db
    else
      match InsertUser(db, email, hash, "admin", now,
                       Setting(env.firstName, DefaultFirstName), Setting(env.lastName, DefaultLastName))
      case Ok((db', _)) => db'
      case Err(_) => db
  }

  /** Running the script a second time, with any hash and at any time, leaves
      the store as the first run left it. */
  lemma BootstrapIdempotent(db: Db, env: AdminEnv, hash: Hash, now: int, hash2: Hash, later: int)
    ensures Bootstrap(Bootstrap(db, env, hash, now), env, hash2, later) == Bootstrap(db, env, hash, now)
  {
  }

  /** Variables that are set and non-empty win over the defaults: the new
      administrator carries the configured names and the configured email,
      lowercased. */
  lemma BootstrapUsesConfigured(db: Db, env: AdminEnv, hash: Hash, now: int)
    requires env.email.Some? && env.email.value != ""
    requires env.firstName.Some? && env.firstName.value != ""
    requires env.lastName.Some? && env.lastName.value != ""
    requires !HasEmail(db, ToLower(env.email.value))
    ensures var r := Bootstrap(db, env, hash, now);
      && |r.users| == |db.users| + 1
      && r.users[|db.users|].email == ToLower(env.email.value)
      && r.users[|db.users|].firstName == env.firstName
      && r.users[|db.users|].lastName == env.lastName
  {
  }

  /** With unset variables the administrator is admin@example.com, named
      Admin User. */
  lemma BootstrapDefaults(db: Db, hash: Hash, now: int)
    requires !HasEmail(db, DefaultEmail)
    ensures var r := Bootstrap(db, AdminEnv(None, None, None, None), hash, now);
      && r.users[|db.users|].email == "admin@example.com"
      && r.users[|db.users|].firstName == Some("Admin")
      && r.users[|db.users|].lastName == Some("User")
  {
    assert ToLower(DefaultEmail) == DefaultEmail;
  }
}

=== FILE: auth_server.dfy ===
/**
  The account handlers of the server: login, registration, the forgotten
  password request, and the reset link (showing it and submitting it).

  Each handler is a function from the store, the request fields and the
  handler's outside inputs to the new store and the answer. The outside
  inputs are parameters: the email validator, bcrypt (a hash the caller
  produced and a `matches` relation standing for `bcrypt.compare`), the
  token `nanoid` drew, and the current time in milliseconds.
 */
module AuthServer {
  import opened Wrappers
  import opened JsText
  import opened UserStore
  import opened Guards

  /** A reset link stays usable for one hour. */
  const ResetLifetimeMs := 3600000

  /** The shortest password the validators accept. */
  const MinPasswordLength := 6

  const EmailInvalid := "Email is invalid"
  const BadCredentials := "Invalid credentials"
  const EmailTaken := "Email already in use"
  const ForgotInfo := "If the email exists, a reset link has been sent."
  const BadResetLink := "Invalid or expired reset link."

  datatype View = LoginView | RegisterView | ForgotView | ResetView

  datatype Response =
    | Render(status: int, view: View, error: Option<string>, info: Option<string>)
    | Redirect(location: string)
    | Text(status: int, body: string)
    | Crashed    // the handler threw before answering

  /** The mail a handler hands to the mailer. */
  datatype Mail = WelcomeMail(to: string, firstName: string, lastName: string) | ResetMail(to: string, token: string)

  /** The store, the session and the answer after a handler ran. */
  datatype Outcome = Outcome(db: Db, session: Option<SessionUser>, response: Response, mail: Option<Mail>)

  function Rejected(view: View, message: string): Response {
    Render(400, view, Some(message), None)
  }

  // ---------------------------------------------------------------------------
  // Login
  // ---------------------------------------------------------------------------

  /** The first failing validator of POST /login, if any. */
  function LoginValidation(email: string, password: string, isEmail: string -> bool): (e: Option<string>)
    ensures e.None? <==> isEmail(email) && |password| >= MinPasswordLength
    ensures !isEmail(email) ==> e == Some(EmailInvalid)
  {
    if !isEmail(email) then Some(EmailInvalid)
    else if |password| < MinPasswordLength then Some("Password is required")
    else None
  }

  /** The session entry for a stored user; missing names become "". */
  function SessionFor(u: User): (s: SessionUser)
    ensures s.id == u.id && s.email == u.email && s.role == u.role
    ensures u.firstName.None? ==> s.firstName == ""
    ensures u.firstName.Some? ==> s.firstName == u.firstName.value
    ensures u.lastName.None? ==> s.lastName == ""
    ensures u.lastName.Some? ==> s.lastName == u.lastName.value
  {
    SessionUser(u.id, u.email, u.role, u.firstName.GetOr(""), u.lastName.GetOr(""))
  }

  /** POST /login. The email is looked up lowercased; an unknown email and a
      wrong password get the same 401 answer. The store never changes. */
  function Login(db: Db, session: Option<SessionUser>, email: string, password: string,
                 isEmail: string -> bool, matches: (string, Hash) -> bool): (r: Outcome)
    ensures r.db == db && r.mail.None?
    ensures r.response.Redirect? <==>
      && LoginValidation(email, password, isEmail).None?
      && HasEmail(db, ToLower(email))
      && matches(password, UserByEmail(db, ToLower(email)).value.passwordHash)
    ensures r.response.Redirect? ==>
      && r.response == Redirect("/dashboard")
      && r.session == Some(SessionFor(UserByEmail(db, ToLower(email)).value))
    ensures !r.response.Redirect? ==> r.session == session
    ensures LoginValidation(email, password, isEmail).Some? ==>
      r.response == Rejected(LoginView, LoginValidation(email, password, isEmail).value)
    ensures LoginValidation(email, password, isEmail).None? && !r.response.Redirect? ==>
      r.response == Render(401, LoginView, Some(BadCredentials), None)
  {
    match LoginValidation(email, password, isEmail)
    case Some(message) => Outcome(db, session, Rejected(LoginView, message), None)
    case None =>
      match UserByEmail(db, ToLower(email))
      case None => Outcome(db, session, Render(401, LoginView, Some(BadCredentials), None), None)
      case Some(u) =>
        if !matches(password, u.passwordHash) then
          Outcome(db, session, Render(401, LoginView, Some(BadCredentials), None), None)
        else Outcome(db, Some(SessionFor(u)), Redirect("/dashboard"), None)
  }

  /** A failed login does not tell whether the account exists: whatever two
      stores hold, two failed attempts with valid-looking input get the same
      answer. */
  lemma LoginFailureRevealsNothing(db1: Db, db2: Db, session: Option<SessionUser>,
                                   email1: string, email2: string, password: string,
                                   isEmail: string -> bool, matches: (string, Hash) -> bool)
    requires isEmail(email1) && isEmail(email2) && |password| >= MinPasswordLength
    requires !Login(db1, session, email1, password, isEmail, matches).response.Redirect?
    requires !Login(db2, session, email2, password, isEmail, matches).response.Redirect?
    ensures Login(db1, session, email1, password, isEmail, matches)
         == Login(db2, session, email2, password, isEmail, matches).(db := db1)
  {
  }

  // ---------------------------------------------------------------------------
  // Registration
  // ---------------------------------------------------------------------------

  /** The first failing validator of POST /register, in declaration order. */
  function RegisterValidation(firstName: string, lastName: string, email: string, password: string,
                              confirm: string, isEmail: string -> bool): (e: Option<string>)
    ensures e.None? <==>
      && Trim(firstName) != [] && Trim(lastName) != [] && isEmail(email)
      && |password| >= MinPasswordLength && confirm == password
    ensures Trim(firstName) == [] ==> e == Some("First name is required")
  {
    if Trim(firstName) == [] then Some("First name is required")
    else if Trim(lastName) == [] then Some("Last name is required")
    else if !isEmail(email) then Some(EmailInvalid)
    else if |password| < MinPasswordLength then Some("Password must be at least 6 chars")
    else if confirm != password then Some("Passwords do not match")
    else None
  }

  /** POST /register. A taken (lowercased) email is refused with the store
      unchanged; otherwise the account is stored with role "user", the
      lowercased email and the trimmed names, and the new user is signed in. */
  function Register(db: Db, session: Option<SessionUser>, firstName: string, lastName: string,
                    email: string, password: string, confirm: string,
                    isEmail: string -> bool, hash: Hash, now: int): (r: Outcome)
    ensures r.response.Redirect? <==>
      RegisterValidation(firstName, lastName, email, password, confirm, isEmail).None?
      && !HasEmail(db, ToLower(email))
    ensures !r.response.Redirect? ==> r.db == db && r.session == session && r.mail.None?
    ensures RegisterValidation(firstName, lastName, email, password, confirm, isEmail).Some? ==>
      r.response == Rejected(RegisterView,
                             RegisterValidation(firstName, lastName, email, password, confirm, isEmail).value)
    ensures (RegisterValidation(firstName, lastName, email, password, confirm, isEmail).None?
             && HasEmail(db, ToLower(email))) ==> r.response == Rejected(RegisterView, EmailTaken)
    ensures r.response.Redirect? ==>
      && r.response == Redirect("/dashboard")
      && |r.db.users| == |db.users| + 1
      && r.db.users[..|db.users|] == db.users
      && var u := r.db.users[|db.users|];
         && u == User(u.id, ToLower(email), hash, "user", now, Some(Trim(firstName)), Some(Trim(lastName)))
         && r.session == Some(SessionFor(u))
         && r.mail == Some(WelcomeMail(ToLower(email), Trim(firstName), Trim(lastName)))
    ensures Valid(db) ==> Valid(r.db)
  {
    match RegisterValidation(firstName, lastName, email, password, confirm, isEmail)
    case Some(message) => Outcome(db, session, Rejected(RegisterView, message), None)
    case None =>
      var lower := ToLower(email);
      if UserByEmail(db, lower).Some? then Outcome(db, session, Rejected(RegisterView, EmailTaken), None)
      else
        match InsertUser(db, lower, hash, "user", now, Trim(firstName), Trim(lastName))
        case Err(_) => Outcome(db, session, Crashed, None)
        case Ok((db', id)) =>
          var user := SessionUser(id, lower, "user", Trim(firstName), Trim(lastName));
          Outcome(db', Some(user), Redirect("/dashboard"),
                  Some(WelcomeMail(lower, Trim(firstName), Trim(lastName))))
  }

  /** After a registration, logging in with the same password and the email
      in any letter case signs in as the account just created. */
  lemma RegisterThenLogin(db: Db, firstName: string, lastName: string, email: string, password: string,
                          isEmail: string -> bool, hash: Hash, now: int,
                          loginEmail: string, matches: (string, Hash) -> bool, later: Option<SessionUser>)
    requires Valid(db)
    requires Register(db, None, firstName, lastName, email, password, password, isEmail, hash, now).response.Redirect?
    requires ToLower(loginEmail) == ToLower(email) && isEmail(loginEmail) && matches(password, hash)
    ensures var registered := Register(db, None, firstName, lastName, email, password, password, isEmail, hash, now);
      Login(registered.db, later, loginEmail, password, isEmail, matches).session == registered.session
  {
    var registered := Register(db, None, firstName, lastName, email, password, password, isEmail, hash, now);
    UserByEmailUnique(registered.db, |db.users|);
  }

  // ---------------------------------------------------------------------------
  // Forgotten password
  // ---------------------------------------------------------------------------

  /** POST /forgot. For a known (lowercased) email a reset row with the drawn
      token and an expiry one hour from now is stored and the link is mailed;
      the answer is the same whether or not the email is known. A token that
      collides with a stored one makes the insert throw. */
  function Forgot(db: Db, session: Option<SessionUser>, email: string, isEmail: string -> bool,
                  token: string, now: int): (r: Outcome)
    ensures r.session == session
    ensures !isEmail(email) ==> r == Outcome(db, session, Rejected(ForgotView, EmailInvalid), None)
    ensures isEmail(email) && r.response != Crashed ==>
      r.response == Render(200, ForgotView, None, Some(ForgotInfo))
    ensures r.db != db ==> isEmail(email) && HasEmail(db, ToLower(email))
    ensures isEmail(email) && !HasEmail(db, ToLower(email)) ==>
      r == Outcome(db, session, Render(200, ForgotView, None, Some(ForgotInfo)), None)
    ensures r.response == Crashed <==> isEmail(email) && HasEmail(db, ToLower(email)) && HasToken(db, token)
    ensures isEmail(email) && HasEmail(db, ToLower(email)) && !HasToken(db, token) ==>
      var u := UserByEmail(db, ToLower(email)).value;
      && r.mail == Some(ResetMail(u.email, token))
      && r.db.users == db.users
      && |r.db.resets| == |db.resets| + 1
      && r.db.resets[..|db.resets|] == db.resets
      && r.db.resets[|db.resets|].userId == u.id
      && r.db.resets[|db.resets|].token == token
      && r.db.resets[|db.resets|].expiresAt == now + ResetLifetimeMs
      && !r.db.resets[|db.resets|].used
    ensures Valid(db) ==> Valid(r.db)
  {
    if !isEmail(email) then Outcome(db, session, Rejected(ForgotView, EmailInvalid), None)
    else
      var info := Render(200, ForgotView, None, Some(ForgotInfo));
      match UserByEmail(db, ToLower(email))
      case None => Outcome(db, session, info, None)
      case Some(u) =>
        match InsertReset(db, u.id, token, now + ResetLifetimeMs)
        case Err(_) => Outcome(db, session, Crashed, None)
        case Ok(db') => Outcome(db', session, info, Some(ResetMail(u.email, token)))
  }

  // ---------------------------------------------------------------------------
  // Reset link
  // ---------------------------------------------------------------------------

  /** The link's check: a row with that token exists, it has not expired (the
      expiry instant itself still counts) and it has not been used. */
  predicate LinkUsable(db: Db, token: string, now: int) {
    var row := ResetByToken(db, token);
    row.Some? && now <= row.value.expiresAt && !row.value.used
  }

  /** With distinct tokens, the link is usable exactly when some stored row
      carries the token, is unexpired and unused. */
  lemma LinkUsableIff(db: Db, token: string, now: int)
    requires Valid(db)
    ensures LinkUsable(db, token, now) <==>
      exists i :: 0 <= i < |db.resets| && db.resets[i].token == token
                  && now <= db.resets[i].expiresAt && !db.resets[i].used
  {
    if i :| 0 <= i < |db.resets| && db.resets[i].token == token
            && now <= db.resets[i].expiresAt && !db.resets[i].used {
      ResetByTokenUnique(db, i);
    }
  }

  /** GET /reset/:token. */
  function ResetPage(db: Db, token: string, now: int): (r: Response)
    ensures r.Render? <==> LinkUsable(db, token, now)
    ensures r.Render? ==> r == Render(200, ResetView, None, None)
    ensures !r.Render? ==> r == Text(400, BadResetLink)
  {
    if LinkUsable(db, token, now) then Render(200, ResetView, None, None) else Text(400, BadResetLink)
  }

  /** The first failing validator of POST /reset/:token, if any. */
  function ResetValidation(password: string, confirm: string): (e: Option<string>)
    ensures e.None? <==> |password| >= MinPasswordLength && confirm == password
  {
    if |password| < MinPasswordLength then Some("Password must be at least 6 chars")
    else if confirm != password then Some("Passwords do not match")
    else None
  }

  /** What a reset link is left with after a handler ran. */
  datatype ResetOutcome = ResetOutcome(db: Db, response: Response)

  /** POST /reset/:token. The fields are validated first, then the link; a
      usable link sets the owner's password hash and marks the row used. */
  function ResetSubmit(db: Db, token: string, password: string, confirm: string,
                       hash: Hash, now: int): (r: ResetOutcome)
    ensures r.response == Redirect("/login") <==>
      ResetValidation(password, confirm).None? && LinkUsable(db, token, now)
    ensures ResetValidation(password, confirm).Some? ==>
      r == ResetOutcome(db, Rejected(ResetView, ResetValidation(password, confirm).value))
    ensures ResetValidation(password, confirm).None? && !LinkUsable(db, token, now) ==>
      r == ResetOutcome(db, Text(400, BadResetLink))
    ensures r.response.Redirect? ==>
      var row := ResetByToken(db, token).value;
      && r.db == MarkResetUsed(UpdateUserPassword(db, row.userId, hash), row.id)
    ensures Valid(db) ==> Valid(r.db)
  {
    match ResetValidation(password, confirm)
    case Some(message) => ResetOutcome(db, Rejected(ResetView, message))
    case None =>
      if !LinkUsable(db, token, now) then ResetOutcome(db, Text(400, BadResetLink))
      else
        var row := ResetByToken(db, token).value;
        ResetOutcome(MarkResetUsed(UpdateUserPassword(db, row.userId, hash), row.id), Redirect("/login"))
  }

  /** A successful reset changes the password of the link's owner and of
      nobody else. */
  lemma ResetChangesOnlyOwner(db: Db, token: string, password: string, hash: Hash, now: int, k: nat)
    requires Valid(db) && k < |db.users|
    requires ResetSubmit(db, token, password, password, hash, now).response.Redirect?
    ensures var after := ResetSubmit(db, token, password, password, hash, now).db;
      && |after.users| == |db.users|
      && after.users[k].passwordHash ==
         (if db.users[k].id == ResetByToken(db, token).value.userId then hash else db.users[k].passwordHash)
      && after.users[k].email == db.users[k].email
  {
  }

  /** A reset link works once: after a successful reset the same link is
      refused, at any later time, and the store is left as it is. */
  lemma ResetLinkSingleUse(db: Db, token: string, password: string, hash: Hash, now: int,
                           password2: string, hash2: Hash, later: int)
    requires Valid(db)
    requires ResetSubmit(db, token, password, password, hash, now).response.Redirect?
    requires |password2| >= MinPasswordLength
    ensures var after := ResetSubmit(db, token, password, password, hash, now).db;
      && !LinkUsable(after, token, later)
      && ResetSubmit(after, token, password2, password2, hash2, later) == ResetOutcome(after, Text(400, BadResetLink))
  {
    var row := ResetByToken(db, token).value;
    var i :| 0 <= i < |db.resets| && db.resets[i] == row;
    var after := ResetSubmit(db, token, password, password, hash, now).db;
    assert after.resets[i].token == token && after.resets[i].used;
    ResetByTokenUnique(after, i);
  }

  /** The link mailed by POST /forgot opens the reset form until exactly one
      hour after the request, and not after that. */
  lemma ForgotLinkLifetime(db: Db, session: Option<SessionUser>, email: string, isEmail: string -> bool,
                           token: string, now: int, later: int)
    requires Valid(db)
    requires Forgot(db, session, email, isEmail, token, now).mail.Some?
    ensures var after := Forgot(db, session, email, isEmail, token, now).db;
      LinkUsable(after, token, later) <==> later <= now + ResetLifetimeMs
  {
    var after := Forgot(db, session, email, isEmail, token, now).db;
    ResetByTokenUnique(after, |db.resets|);
  }

  /** After a successful reset, logging in as the link's owner with the new
      password succeeds. */
  lemma ResetThenLogin(db: Db, token: string, password: string, hash: Hash, now: int,
                       k: nat, loginEmail: string, isEmail: string -> bool,
                       matches: (string, Hash) -> bool, session: Option<SessionUser>)
    requires Valid(db) && k < |db.users|
    requires ResetSubmit(db, token, password, password, hash, now).response.Redirect?
    requires db.users[k].id == ResetByToken(db, token).value.userId
    requires ToLower(loginEmail) == db.users[k].email && isEmail(loginEmail) && matches(password, hash)
    ensures var after := ResetSubmit(db, token, password, password, hash, now).db;
      Login(after, session, loginEmail, password, isEmail, matches).response == Redirect("/dashboard")
  {
    var after := ResetSubmit(db, token, password, password, hash, now).db;
    ResetChangesOnlyOwner(db, token, password, hash, now, k);
    UserByEmailUnique(after, k);
  }
}

=== FILE: base64url.dfy ===
/**
  The decoder the browser client uses to turn the server's VAPID public key,
  written in the URL- and filename-safe base64 alphabet of section 5 of
  RFC 4648 without padding, into the bytes of a Uint8Array.

  The decoder pads the text to a multiple of four characters, translates the
  alphabet of section 5 into the alphabet of section 4 of RFC 4648, decodes it
  (the browser's `atob`, which yields a "binary string" of char codes below 256)
  and widens each char code into one byte.
 */
module Base64Url {
  import opened Wrappers

  /** An element of a Uint8Array. */
  type Byte = x: int | 0 <= x < 256

  /** A six-bit value: the meaning of one base64 digit. */
  type Sextet = x: int | 0 <= x < 64

  // ---------------------------------------------------------------------------
  // The two alphabets (Table 1 and Table 2 of RFC 4648)
  // ---------------------------------------------------------------------------

  /** The digit for `v` in the base64 alphabet of section 4 of RFC 4648. */
  function StdChar(v: Sextet): char {
    if v < 26 then ('A' as int + v) as char
    else if v < 52 then ('a' as int + (v - 26)) as char
    else if v < 62 then ('0' as int + (v - 52)) as char
    else if v == 62 then '+'
    else '/'
  }

  /** The digit for `v` in the base64url alphabet of section 5 of RFC 4648:
      the same as the standard one except for the values 62 and 63. */
  function UrlChar(v: Sextet): char {
    if v == 62 then '-'
    else if v == 63 then '_'
    else StdChar(v)
  }

  /** The value of a digit of the standard alphabet; None for any other
      character, the padding character `=` included. */
  function StdValue(c: char): (r: Option<Sextet>)
    ensures r.Some? ==> StdChar(r.value) == c
  {
    if 'A' <= c <= 'Z' then Some(c as int - 'A' as int)
    else if 'a' <= c <= 'z' then Some(c as int - 'a' as int + 26)
    else if '0' <= c <= '9' then Some(c as int - '0' as int + 52)
    else if c == '+' then Some(62)
    else if c == '/' then Some(63)
    else None
  }

  /** Every standard digit decodes to the value it encodes. */
  lemma StdValueOfStdChar(v: Sextet)
    ensures StdValue(StdChar(v)) == Some(v)
  {
  }

  // ---------------------------------------------------------------------------
  // Splitting three bytes into four digits and joining them back
  // ---------------------------------------------------------------------------

  function Hi(b0: Byte): Sextet { b0 / 4 }
  function Mid1(b0: Byte, b1: Byte): Sextet { (b0 % 4) * 16 + b1 / 16 }
  function Mid2(b1: Byte, b2: Byte): Sextet { (b1 % 16) * 4 + b2 / 64 }
  function Lo(b2: Byte): Sextet { b2 % 64 }

  function First(v0: Sextet, v1: Sextet): Byte { v0 * 4 + v1 / 16 }
  function Second(v1: Sextet, v2: Sextet): Byte { (v1 % 16) * 16 + v2 / 4 }
  function Third(v2: Sextet, v3: Sextet): Byte { (v2 % 4) * 64 + v3 }

  /** Joining the digits of a group gives back its bytes; the bits a short
      final group fills with zeros are ignored by the join. */
  lemma GroupRoundTrip(b0: Byte, b1: Byte, b2: Byte)
    ensures First(Hi(b0), Mid1(b0, b1)) == b0
    ensures Second(Mid1(b0, b1), Mid2(b1, b2)) == b1
    ensures Third(Mid2(b1, b2), Lo(b2)) == b2
  {
    assert Mid1(b0, b1) / 16 == b0 % 4;
    assert Mid1(b0, b1) % 16 == b1 / 16;
    assert Mid2(b1, b2) / 4 == b1 % 16;
    assert Mid2(b1, b2) % 4 == b2 / 64;
  }

  // ---------------------------------------------------------------------------
  // Encoding (the inverse the decoder is checked against)
  // ---------------------------------------------------------------------------

  /** Number of digits a final group of `r` (< 3) bytes contributes. */
  function TailDigits(r: nat): nat
    requires r < 3
  {
    if r == 0 then 0 else r + 1
  }

  /** The base64 digits of `b`, without padding (section 4 of RFC 4648):
      each full group of three bytes gives four digits, a final group of one
      or two bytes gives two or three digits with its missing bits zero. */
  function Digits(b: seq<Byte>): (d: seq<Sextet>)
    ensures |d| == 4 * (|b| / 3) + TailDigits(|b| % 3)
    decreases |b|
  {
    if |b| == 0 then []
    else if |b| == 1 then [Hi(b[0]), Mid1(b[0], 0)]
    else if |b| == 2 then [Hi(b[0]), Mid1(b[0], b[1]), Mid2(b[1], 0)]
    else [Hi(b[0]), Mid1(b[0], b[1]), Mid2(b[1], b[2]), Lo(b[2])] + Digits(b[3..])
  }

  function StdDigits(d: seq<Sextet>): (s: string)
    ensures |s| == |d|
  {
    seq(|d|, i requires 0 <= i < |d| => StdChar(d[i]))
  }

  function Padding(k: nat): (s: string)
    ensures |s| == k
  {
    seq(k, _ => '=')
  }

  /** The padded standard base64 encoding of `b` (section 4 of RFC 4648). */
  function EncodeStd(b: seq<Byte>): string {
    StdDigits(Digits(b)) + Padding((3 - |b| % 3) % 3)
  }

  /** The unpadded base64url encoding of `b` (section 5 of RFC 4648, with the
      padding omitted as section 3.2 permits): the form a VAPID key comes in. */
  function EncodeUrl(b: seq<Byte>): string {
    var d := Digits(b);
    seq(|d|, i requires 0 <= i < |d| => UrlChar(d[i]))
  }

  // ---------------------------------------------------------------------------
  // Decoding, stage by stage as the client does it
  // ---------------------------------------------------------------------------

  /** How many `=` the client appends: `(4 - len % 4) % 4`. */
  function PadCount(len: nat): (k: nat)
    ensures k <= 3
    ensures (len + k) % 4 == 0
    ensures len % 4 == 0 <==> k == 0
  {
    (4 - len % 4) % 4
  }

  /** The text padded with `=` to a multiple of four characters. */
  function Pad(s: string): (p: string)
    ensures |p| % 4 == 0 && |s| <= |p| <= |s| + 3
    ensures p[..|s|] == s
    ensures forall i :: |s| <= i < |p| ==> p[i] == '='
  {
    s + Padding(PadCount(|s|))
  }

  /** JavaScript's `s.replace(/from/g, to)` for a one-character pattern. */
  function ReplaceAll(s: string, from: char, to: char): (r: string)
    ensures |r| == |s|
    ensures forall i :: 0 <= i < |s| ==> r[i] == (if s[i] == from then to else s[i])
  {
    if |s| == 0 then []
    else [if s[0] == from then to else s[0]] + ReplaceAll(s[1..], from, to)
  }

  /** Translation from the base64url alphabet to the standard one:
      every `-` becomes `+`, every `_` becomes `/`, nothing else changes. */
  function ToStandard(s: string): (t: string)
    ensures |t| == |s|
    ensures forall i :: 0 <= i < |s| ==>
      t[i] == (if s[i] == '-' then '+' else if s[i] == '_' then '/' else s[i])
    ensures forall i :: 0 <= i < |t| ==> t[i] != '-' && t[i] != '_'
  {
    ReplaceAll(ReplaceAll(s, '-', '+'), '_', '/')
  }

  /** Decodes one group of four characters; padding is accepted only in the
      final group, as `xx==` (one byte) or `xxx=` (two bytes). */
  function DecodeQuad(c0: char, c1: char, c2: char, c3: char, last: bool): Option<seq<Byte>> {
    match (StdValue(c0), StdValue(c1), StdValue(c2), StdValue(c3))
    case (Some(v0), Some(v1), Some(v2), Some(v3)) =>
      Some([First(v0, v1), Second(v1, v2), Third(v2, v3)])
    case (Some(v0), Some(v1), Some(v2), None) =>
      if last && c3 == '=' then Some([First(v0, v1), Second(v1, v2)]) else None
    case (Some(v0), Some(v1), None, None) =>
      if last && c2 == '=' && c3 == '=' then Some([First(v0, v1)]) else None
    case _ => None
  }

  /** Decoding by section 4 of RFC 4648: the text must be whole groups of
      four characters of the standard alphabet, padded only at the end. */
  function DecodeStd(s: string): Option<seq<Byte>>
    decreases |s|
  {
    if |s| == 0 then Some([])
    else if |s| < 4 then None
    else
      match DecodeQuad(s[0], s[1], s[2], s[3], |s| == 4)
      case None => None
      case Some(head) =>
        match DecodeStd(s[4..])
        case None => None
        case Some(tail) => Some(head + tail)
  }

  /** The browser's `atob`: the decoded bytes as a binary string, one char per
      byte, every char code below 256; None where `atob` throws. */
  function Atob(s: string): (r: Option<string>)
    ensures r.Some? <==> DecodeStd(s).Some?
    ensures r.Some? ==>
      && |r.value| == |DecodeStd(s).value|
      && forall i :: 0 <= i < |r.value| ==> r.value[i] as int == DecodeStd(s).value[i]
  {
    match DecodeStd(s)
    case None => None
    case Some(bytes) => Some(seq(|bytes|, i requires 0 <= i < |bytes| => bytes[i] as char))
  }

  /** Storing a char code into a Uint8Array keeps it modulo 256. */
  function Widen(raw: string): (out: seq<Byte>)
    ensures |out| == |raw|
    ensures forall i :: 0 <= i < |raw| && raw[i] as int < 256 ==> out[i] == raw[i] as int
  {
    seq(|raw|, i requires 0 <= i < |raw| => (raw[i] as int) % 256)
  }

  /** The whole decoder, as a function of the key text. */
  function DecodeKey(s: string): Option<seq<Byte>> {
    match Atob(ToStandard(Pad(s)))
    case None => None
    case Some(raw) => Some(Widen(raw))
  }

  /** `urlBase64ToUint8Array`: pads, translates, decodes, and copies the char
      codes into a fresh array one by one. None where `atob` throws. */
  method UrlBase64ToUint8Array(base64String: string) returns (r: Option<seq<Byte>>)
    ensures r.Some? <==> Atob(ToStandard(Pad(base64String))).Some?
    ensures r.Some? ==>
      var raw := Atob(ToStandard(Pad(base64String))).value;
      |r.value| == |raw| && forall i :: 0 <= i < |raw| ==> r.value[i] == raw[i] as int
    ensures r == DecodeKey(base64String)
  {
    var base64 := ToStandard(Pad(base64String));
    var decoded := Atob(base64);
    if decoded.None? {
      return None;
    }
    var rawData := decoded.value;
    var out: seq<Byte> := [];
    var i := 0;
    while i < |rawData|
      invariant 0 <= i <= |rawData|
      invariant |out| == i
      invariant forall j :: 0 <= j < i ==> out[j] == (rawData[j] as int) % 256
    {
      out := out + [(rawData[i] as int) % 256];
      i := i + 1;
    }
    assert forall j :: 0 <= j < |out| ==> out[j] == Widen(rawData)[j];
    assert out == Widen(rawData);
    assert DecodeKey(base64String) == Some(Widen(rawData));
    return Some(out);
  }

  // ---------------------------------------------------------------------------
  // Properties
  // ---------------------------------------------------------------------------

  lemma StdDigitsAppend(d: seq<Sextet>, e: seq<Sextet>)
    ensures StdDigits(d + e) == StdDigits(d) + StdDigits(e)
  {
  }

  /** The padded encoding of `b` is the encoding of its first group followed
      by the padded encoding of the rest. */
  lemma EncodeStdUnfold(b: seq<Byte>)
    requires |b| >= 3
    ensures EncodeStd(b) == StdDigits([Hi(b[0]), Mid1(b[0], b[1]), Mid2(b[1], b[2]), Lo(b[2])]) + EncodeStd(b[3..])
  {
    var g := [Hi(b[0]), Mid1(b[0], b[1]), Mid2(b[1], b[2]), Lo(b[2])];
    StdDigitsAppend(g, Digits(b[3..]));
    assert (3 - |b| % 3) % 3 == (3 - |b[3..]| % 3) % 3;
  }

  /** `xx==` decodes to one byte. */
  lemma DecodeLastOne(v0: Sextet, v1: Sextet)
    ensures DecodeStd([StdChar(v0), StdChar(v1), '=', '=']) == Some([First(v0, v1)])
  {
    var s := [StdChar(v0), StdChar(v1), '=', '='];
    assert |s| == 4 && s[4..] == [];
    StdValueOfStdChar(v0);
    StdValueOfStdChar(v1);
    assert DecodeQuad(s[0], s[1], s[2], s[3], |s| == 4) == Some([First(v0, v1)]);
    assert DecodeStd(s[4..]) == Some([]);
    assert [First(v0, v1)] + [] == [First(v0, v1)];
  }

  /** `xxx=` decodes to two bytes. */
  lemma DecodeLastTwo(v0: Sextet, v1: Sextet, v2: Sextet)
    ensures DecodeStd([StdChar(v0), StdChar(v1), StdChar(v2), '=']) == Some([First(v0, v1), Second(v1, v2)])
  {
    var s := [StdChar(v0), StdChar(v1), StdChar(v2), '='];
    assert |s| == 4 && s[4..] == [];
    StdValueOfStdChar(v0);
    StdValueOfStdChar(v1);
    StdValueOfStdChar(v2);
    assert DecodeQuad(s[0], s[1], s[2], s[3], |s| == 4) == Some([First(v0, v1), Second(v1, v2)]);
    assert DecodeStd(s[4..]) == Some([]);
    assert [First(v0, v1), Second(v1, v2)] + [] == [First(v0, v1), Second(v1, v2)];
  }

  /** The padded encoding of a single byte. */
  lemma EncodeStdOne(b: seq<Byte>)
    requires |b| == 1
    ensures EncodeStd(b) == [StdChar(Hi(b[0])), StdChar(Mid1(b[0], 0)), '=', '=']
  {
    var v0, v1 := Hi(b[0]), Mid1(b[0], 0);
    assert Digits(b) == [v0, v1];
    assert StdDigits([v0, v1]) == [StdChar(v0), StdChar(v1)];
    assert Padding(2) == ['=', '='];
  }

  /** The padded encoding of two bytes. */
  lemma EncodeStdTwo(b: seq<Byte>)
    requires |b| == 2
    ensures EncodeStd(b) == [StdChar(Hi(b[0])), StdChar(Mid1(b[0], b[1])), StdChar(Mid2(b[1], 0)), '=']
  {
    var v0, v1, v2 := Hi(b[0]), Mid1(b[0], b[1]), Mid2(b[1], 0);
    assert Digits(b) == [v0, v1, v2];
    assert StdDigits([v0, v1, v2]) == [StdChar(v0), StdChar(v1), StdChar(v2)];
    assert Padding(1) == ['='];
  }

  lemma JoinOne(x: Byte)
    ensures First(Hi(x), Mid1(x, 0)) == x
  {
    GroupRoundTrip(x, 0, 0);
  }

  lemma JoinTwo(x: Byte, y: Byte)
    ensures First(Hi(x), Mid1(x, y)) == x
    ensures Second(Mid1(x, y), Mid2(y, 0)) == y
  {
    GroupRoundTrip(x, y, 0);
  }

  /** A final group of one byte decodes from `xx==`. */
  lemma DecodeEncodeOne(b: seq<Byte>)
    requires |b| == 1
    ensures DecodeStd(EncodeStd(b)) == Some(b)
  {
    EncodeStdOne(b);
    DecodeLastOne(Hi(b[0]), Mid1(b[0], 0));
    JoinOne(b[0]);
    assert [b[0]] == b;
  }

  /** A final group of two bytes decodes from `xxx=`. */
  lemma DecodeEncodeTwo(b: seq<Byte>)
    requires |b| == 2
    ensures DecodeStd(EncodeStd(b)) == Some(b)
  {
    EncodeStdTwo(b);
    DecodeLastTwo(Hi(b[0]), Mid1(b[0], b[1]), Mid2(b[1], 0));
    JoinTwo(b[0], b[1]);
    assert [b[0], b[1]] == b;
  }

  /** A full group decodes from its four digits. */
  lemma DecodeFullGroup(b0: Byte, b1: Byte, b2: Byte, last: bool)
    ensures DecodeQuad(StdChar(Hi(b0)), StdChar(Mid1(b0, b1)), StdChar(Mid2(b1, b2)), StdChar(Lo(b2)), last)
      == Some([b0, b1, b2])
  {
    StdValueOfStdChar(Hi(b0));
    StdValueOfStdChar(Mid1(b0, b1));
    StdValueOfStdChar(Mid2(b1, b2));
    StdValueOfStdChar(Lo(b2));
    GroupRoundTrip(b0, b1, b2);
  }

  /** Decoding a group followed by more text. */
  lemma DecodeStdCons(q: string, rest: string, head: seq<Byte>, tail: seq<Byte>)
    requires |q| == 4
    requires DecodeQuad(q[0], q[1], q[2], q[3], |rest| == 0) == Some(head)
    requires DecodeStd(rest) == Some(tail)
    ensures DecodeStd(q + rest) == Some(head + tail)
  {
    var s := q + rest;
    assert s[0] == q[0] && s[1] == q[1] && s[2] == q[2] && s[3] == q[3];
    assert s[4..] == rest;
  }

  /** Decoding by section 4 of RFC 4648 inverts the padded encoding. */
  lemma {:induction false} DecodeEncodeStd(b: seq<Byte>)
    ensures DecodeStd(EncodeStd(b)) == Some(b)
    decreases |b|
  {
    if |b| == 0 {
      assert EncodeStd(b) == [];
    } else if |b| == 1 {
      DecodeEncodeOne(b);
    } else if |b| == 2 {
      DecodeEncodeTwo(b);
    } else {
      var quad := StdDigits([Hi(b[0]), Mid1(b[0], b[1]), Mid2(b[1], b[2]), Lo(b[2])]);
      var rest := EncodeStd(b[3..]);
      EncodeStdUnfold(b);
      DecodeFullGroup(b[0], b[1], b[2], |rest| == 0);
      DecodeEncodeStd(b[3..]);
      DecodeStdCons(quad, rest, [b[0], b[1], b[2]], b[3..]);
      assert [b[0], b[1], b[2]] + b[3..] == b;
    }
  }

  /** Padding the unpadded base64url text and translating its alphabet gives
      exactly the padded standard encoding. */
  lemma PadTranslate(b: seq<Byte>)
    ensures ToStandard(Pad(EncodeUrl(b))) == EncodeStd(b)
  {
    var d := Digits(b);
    var u := EncodeUrl(b);
    assert |d| % 4 == TailDigits(|b| % 3);
    assert PadCount(|u|) == (3 - |b| % 3) % 3;
    var t := ToStandard(Pad(u));
    var e := EncodeStd(b);
    assert |t| == |e|;
    forall i | 0 <= i < |t|
      ensures t[i] == e[i]
    {
      if i < |d| {
        assert Pad(u)[i] == UrlChar(d[i]);
        assert e[i] == StdChar(d[i]);
      } else {
        assert Pad(u)[i] == '=';
        assert e[i] == '=';
      }
    }
  }

  /** Widening a binary string made from bytes gives those bytes back. */
  lemma WidenBinary(b: seq<Byte>)
    ensures Widen(seq(|b|, i requires 0 <= i < |b| => b[i] as char)) == b
  {
  }

  /** Round trip: the client decodes the unpadded base64url encoding of any
      byte sequence back to that byte sequence. */
  lemma DecodeKeyRoundTrip(b: seq<Byte>)
    ensures DecodeKey(EncodeUrl(b)) == Some(b)
  {
    PadTranslate(b);
    DecodeEncodeStd(b);
    WidenBinary(b);
  }

  /** Text whose final group has `=` in its second position never decodes. */
  lemma {:induction false} DecodeStdRejectsTriplePad(t: string)
    requires |t| >= 4 && |t| % 4 == 0
    requires t[|t| - 3] == '='
    ensures DecodeStd(t) == None
    decreases |t|
  {
    if |t| == 4 {
      assert StdValue(t[1]) == None;
      assert DecodeQuad(t[0], t[1], t[2], t[3], true) == None;
    } else {
      assert t[4..][|t[4..]| - 3] == '=';
      DecodeStdRejectsTriplePad(t[4..]);
    }
  }

  /** A key whose length is 1 more than a multiple of 4 gets three `=` and is
      not valid base64, so decoding fails. */
  lemma DecodeKeyRejectsLengthOneModFour(s: string)
    requires |s| % 4 == 1
    ensures PadCount(|s|) == 3
    ensures DecodeKey(s) == None
  {
    var t := ToStandard(Pad(s));
    assert t[|t| - 3] == '=';
    DecodeStdRejectsTriplePad(t);
  }
}

=== FILE: dashboard.dfy ===
/**
  The grid page's decision logic: which request, if any, a click produces.

  The page reads flags from the clicked cell's `data-*` attributes and asks
  the user through `prompt`/`confirm`; both become inputs here, and the
  chosen request (or the alert shown instead, or nothing) is the output.
  Sending the request and reloading the page are left to the browser.
 */
module Dashboard {
  import opened Wrappers
  import opened JsText

  // ---------------------------------------------------------------------------
  // The HH:MM check
  // ---------------------------------------------------------------------------

  predicate IsDigit(c: char) {
    '0' <= c <= '9'
  }

  /** The regular expression `^[0-2]\d:\d{2}$` on a string of five characters. */
  predicate HourPattern(t: string)
    requires |t| == 5
  {
    '0' <= t[0] <= '2' && IsDigit(t[1]) && t[2] == ':' && IsDigit(t[3]) && IsDigit(t[4])
  }

  /** `isHHMM`: the trimmed text has the shape of a time of day. The check is
      purely syntactic, so "25:00" and "29:99" pass. */
  predicate IsHHMM(s: string) {
    var t := Trim(s);
    |t| == 5 && HourPattern(t)
  }

  /** `s` holds a five-character time shape at `i`, with only whitespace
      before and after it. */
  predicate PaddedHour(s: string, i: nat) {
    && i + 5 <= |s|
    && AllSpace(s[..i])
    && AllSpace(s[i + 5..])
    && HourPattern(s[i..i + 5])
  }

  /** `isHHMM` holds exactly of the strings made of whitespace, one
      `[0-2]\d:\d\d` shape, and whitespace. */
  lemma IsHHMMIsPaddedHour(s: string)
    ensures IsHHMM(s) <==> exists i :: PaddedHour(s, i)
  {
    if IsHHMM(s) {
      TrimIsPadded(s);
      assert PaddedHour(s, LeadingSpace(s));
    }
    if exists i: nat :: PaddedHour(s, i) {
      var i: nat :| PaddedHour(s, i);
      TrimOfPadded(s, i, i + 5);
    }
  }

  /** The check accepts clock-invalid hours and rejects short forms. */
  lemma IsHHMMExamples()
    ensures IsHHMM("09:15") && IsHHMM(" 09:15 ")
    ensures IsHHMM("25:00") && IsHHMM("29:99")
    ensures !IsHHMM("9:15") && !IsHHMM("09:1") && !IsHHMM("30:00")
  {
    assert !IsSpace('0') && !IsSpace('5') && !IsSpace('2') && !IsSpace('9');
    TrimOfPadded("09:15", 0, 5);
    TrimOfPadded(" 09:15 ", 1, 6);
    TrimOfPadded("25:00", 0, 5);
    TrimOfPadded("29:99", 0, 5);
    TrimOfPadded("9:15", 0, 4);
    TrimOfPadded("09:1", 0, 4);
    TrimOfPadded("30:00", 0, 5);
  }

  // ---------------------------------------------------------------------------
  // Cells, numbers, requests
  // ---------------------------------------------------------------------------

  /** The result of JavaScript's `Number(...)` on an attribute, restricted to
      integers: anything that is not an optionally signed decimal integer is NaN. */
  datatype Num = Finite(value: int) | NaN

  predicate AllDigits(s: string) {
    forall k :: 0 <= k < |s| ==> IsDigit(s[k])
  }

  /** The value of a string of decimal digits. */
  function DigitsValue(s: string): nat
    requires AllDigits(s)
    decreases |s|
  {
    if |s| == 0 then 0
    else
      assert IsDigit(s[|s| - 1]);
      DigitsValue(s[..|s| - 1]) * 10 + (s[|s| - 1] as int - '0' as int)
  }

  /** `Number(text)`: surrounding whitespace is ignored and the empty text is 0. */
  function ToNumber(text: string): (r: Num)
    ensures AllDigits(Trim(text)) ==> r == Finite(DigitsValue(Trim(text)))
    ensures r.NaN? ==> exists k :: 0 <= k < |Trim(text)| && !IsDigit(Trim(text)[k])
  {
    var t := Trim(text);
    if t == [] then Finite(0)
    else if AllDigits(t) then Finite(DigitsValue(t))
    else if (t[0] == '-' || t[0] == '+') && |t| > 1 && AllDigits(t[1..]) then
      var v: int := DigitsValue(t[1..]);
      Finite(if t[0] == '-' then -v else v)
    else NaN
  }

  /** The decimal rendering of a natural number, as a template writes an id. */
  function Decimal(n: nat): (s: string)
    ensures |s| >= 1 && AllDigits(s)
  {
    var d := ['0' + (n % 10) as char];
    if n < 10 then d else Decimal(n / 10) + d
  }

  lemma {:induction false} DigitsValueOfDecimal(n: nat)
    ensures DigitsValue(Decimal(n)) == n
  {
    var s := Decimal(n);
    if n >= 10 {
      assert s[..|s| - 1] == Decimal(n / 10);
      DigitsValueOfDecimal(n / 10);
    } else {
      assert s[..|s| - 1] == [];
    }
  }

  /** `Number` reads back every rendered integer, with or without a minus sign. */
  lemma ToNumberOfDecimal(n: nat)
    ensures ToNumber(Decimal(n)) == Finite(n)
    ensures ToNumber("-" + Decimal(n)) == Finite(-(n as int))
  {
    var s := Decimal(n);
    var t := "-" + s;
    assert !IsSpace(s[0]) && !IsSpace(s[|s| - 1]);
    TrimOfPadded(s, 0, |s|);
    assert s[0..|s|] == s;
    TrimOfPadded(t, 0, |t|);
    assert t[0..|t|] == t && t[1..] == s;
    DigitsValueOfDecimal(n);
  }

  /** `Number(attr || -1)`: a missing or empty attribute becomes -1. */
  function SlotIdOf(attr: Option<string>): (n: Num)
    ensures attr.None? || attr == Some("") ==> n == Finite(-1)
  {
    if attr.None? || attr.value == "" then Finite(-1) else ToNumber(attr.value)
  }

  /** A cell rendered with a positive id yields that id, and passes the
      `slotId <= 0` guard. */
  lemma SlotIdOfRendered(id: nat)
    ensures SlotIdOf(Some(Decimal(id))) == Finite(id)
    ensures id > 0 <==> !NotPositive(SlotIdOf(Some(Decimal(id))))
  {
    ToNumberOfDecimal(id);
  }

  /** `slotId <= 0`. NaN compares false with everything, so a NaN id passes. */
  predicate NotPositive(n: Num) {
    n.Finite? && n.value <= 0
  }

  /** A grid cell's attributes, as `getAttribute` returns them. */
  datatype Cell = Cell(taken: Option<string>, mine: Option<string>, active: Option<string>, slotId: Option<string>)

  /** A flag attribute is set exactly when it reads "1". */
  predicate Flag(attr: Option<string>) {
    attr == Some("1")
  }

  /** The requests the page can send. */
  datatype Request =
    | Unreserve                             // POST /unreserve
    | Reserve(slot: Num)                    // POST /reserve/<id>
    | ClearSlot(slot: Num)                  // POST /admin/slots/<id>/clear
    | SetActive(slot: Num, active: bool)    // POST /admin/slots/<id>/active
    | SetLabel(slot: Num, text: string)    // POST /admin/slots/<id>/label
    | RenameHour(from: string, to: string)  // POST /admin/hours/rename
    | DeleteHour(time: string)              // POST /admin/hours/delete
    | CreateHour(time: string)              // POST /admin/hours/create
    | Cleanup                               // POST /admin/cleanup

  /** The alerts the page shows instead of sending anything. */
  datatype Alert = SlotClosed | SlotTaken | BadSourceHour | HHMMRequired

  datatype Outcome = Send(request: Request) | Show(alert: Alert) | Nothing

  // ---------------------------------------------------------------------------
  // Handlers
  // ---------------------------------------------------------------------------

  /** `onUserCellClick`. `onControl` says the click landed inside
      `.admin-actions`, on a button or on a badge. */
  function UserCellClick(cell: Cell, onControl: bool): (r: Outcome)
    ensures onControl || NotPositive(SlotIdOf(cell.slotId)) ==> r == Nothing
    ensures !onControl && !NotPositive(SlotIdOf(cell.slotId)) && Flag(cell.mine) ==> r == Send(Unreserve)
    ensures r == Send(Reserve(SlotIdOf(cell.slotId))) <==>
      !onControl && !NotPositive(SlotIdOf(cell.slotId)) && !Flag(cell.mine) && Flag(cell.active) && !Flag(cell.taken)
    ensures r == Show(SlotClosed) <==>
      !onControl && !NotPositive(SlotIdOf(cell.slotId)) && !Flag(cell.mine) && !Flag(cell.active)
    ensures r == Show(SlotTaken) <==>
      !onControl && !NotPositive(SlotIdOf(cell.slotId)) && !Flag(cell.mine) && Flag(cell.active) && Flag(cell.taken)
    ensures r.Send? ==> r.request.Unreserve? || r.request.Reserve?
  {
    var slotId := SlotIdOf(cell.slotId);
    if onControl || NotPositive(slotId) then Nothing
    else if Flag(cell.mine) then Send(Unreserve)
    else if !Flag(cell.active) then Show(SlotClosed)
    else if Flag(cell.taken) then Show(SlotTaken)
    else Send(Reserve(slotId))
  }

  /** `onAdminActionClick`: `cell` is the button's enclosing cell and
      `labelAnswer` what the label prompt returned (None when cancelled). */
  function AdminActionClick(action: Option<string>, cell: Option<Cell>, labelAnswer: Option<string>): (r: Outcome)
    ensures cell.None? ==> r == Nothing
    ensures cell.Some? && NotPositive(SlotIdOf(cell.value.slotId)) ==> r == Nothing
    ensures r.Send? ==>
      && cell.Some?
      && (r.request.ClearSlot? || r.request.SetActive? || r.request.SetLabel?)
      && r.request.slot == SlotIdOf(cell.value.slotId)
      && !NotPositive(r.request.slot)
    ensures r.Send? && r.request.SetActive? ==>
      (action == Some("close") && !r.request.active) || (action == Some("open") && r.request.active)
    ensures r.Send? && r.request.SetLabel? ==>
      action == Some("label") && labelAnswer.Some? && r.request.text == Trim(labelAnswer.value)
    ensures action == Some("label") && labelAnswer.None? ==> r == Nothing
    ensures !r.Show?
    ensures cell.Some? && !NotPositive(SlotIdOf(cell.value.slotId)) ==>
      var id := SlotIdOf(cell.value.slotId);
      && (action == Some("clear") ==> r == Send(ClearSlot(id)))
      && (action == Some("close") ==> r == Send(SetActive(id, false)))
      && (action == Some("open") ==> r == Send(SetActive(id, true)))
      && (action == Some("label") && labelAnswer.Some? ==> r == Send(SetLabel(id, Trim(labelAnswer.value))))
    ensures (action != Some("clear") && action != Some("close") && action != Some("open")
             && action != Some("label")) ==> r == Nothing
  {
    if cell.None? then Nothing
    else
      var slotId := SlotIdOf(cell.value.slotId);
      if NotPositive(slotId) && action != Some("rename-hour") && action != Some("delete-hour") then Nothing
      else if action == Some("clear") then Send(ClearSlot(slotId))
      else if action == Some("close") then Send(SetActive(slotId, false))
      else if action == Some("open") then Send(SetActive(slotId, true))
      else if action == Some("label") then
        if labelAnswer.None? then Nothing
        else Send(SetLabel(slotId, Trim(labelAnswer.value)))
      else Nothing
  }

  /** `onHourAction`: `timeAttr` is the button's `data-time`, `answer` the
      rename prompt's result and `confirmed` the delete confirmation. */
  function HourAction(action: Option<string>, timeAttr: Option<string>, answer: Option<string>, confirmed: bool): (r: Outcome)
    ensures !IsHHMM(Trim(timeAttr.GetOr(""))) ==> r == Show(BadSourceHour)
    ensures r.Send? ==> IsHHMM(Trim(timeAttr.GetOr("")))
    ensures r.Send? && r.request.RenameHour? ==>
      action == Some("rename-hour") && answer.Some? && IsHHMM(answer.value)
      && r.request.from == Trim(timeAttr.GetOr("")) && r.request.to == answer.value
    ensures r.Send? && r.request.DeleteHour? ==>
      action == Some("delete-hour") && confirmed && r.request.time == Trim(timeAttr.GetOr(""))
    ensures r.Send? ==> r.request.RenameHour? || r.request.DeleteHour?
    ensures IsHHMM(Trim(timeAttr.GetOr(""))) ==>
      var time := Trim(timeAttr.GetOr(""));
      && (action == Some("rename-hour") && answer.None? ==> r == Nothing)
      && (action == Some("rename-hour") && answer.Some? && !IsHHMM(answer.value) ==> r == Show(HHMMRequired))
      && (action == Some("rename-hour") && answer.Some? && IsHHMM(answer.value) ==>
            r == Send(RenameHour(time, answer.value)))
      && (action == Some("delete-hour") ==> r == (if confirmed then Send(DeleteHour(time)) else Nothing))
      && (action != Some("rename-hour") && action != Some("delete-hour") ==> r == Nothing)
  {
    var time := Trim(timeAttr.GetOr(""));
    if !IsHHMM(time) then Show(BadSourceHour)
    else if action == Some("rename-hour") then
      if answer.None? then Nothing
      else if !IsHHMM(answer.value) then Show(HHMMRequired)
      else Send(RenameHour(time, answer.value))
    else if action == Some("delete-hour") then
      if !confirmed then Nothing else Send(DeleteHour(time))
    else Nothing
  }

  /** `ROLE`: the body's `data-role`, defaulting to "user", lowercased. */
  function Role(attr: Option<string>): (role: string)
    ensures attr.None? || attr == Some("") ==> role == "user"
    ensures attr.Some? && attr.value != "" ==> role == ToLower(attr.value)
  {
    ToLower(if attr.None? || attr.value == "" then "user" else attr.value)
  }

  /** The add-hour button: present only for admins; sends the prompt's answer
      as typed, once it passes `isHHMM`. */
  function AddHourClick(role: string, answer: Option<string>): (r: Outcome)
    ensures r.Send? <==> role == "admin" && answer.Some? && IsHHMM(answer.value)
    ensures r.Send? ==> r.request == CreateHour(answer.value)
    ensures r == Show(HHMMRequired) <==> role == "admin" && answer.Some? && !IsHHMM(answer.value)
    ensures role != "admin" || answer.None? ==> r == Nothing
  {
    if role != "admin" || answer.None? then Nothing
    else if !IsHHMM(answer.value) then Show(HHMMRequired)
    else Send(CreateHour(answer.value))
  }

  /** The clean-all button: present only for admins, and asks first. */
  function CleanupClick(role: string, confirmed: bool): (r: Outcome)
    ensures r.Send? <==> role == "admin" && confirmed
    ensures r.Send? ==> r.request == Cleanup
    ensures !r.Show?
  {
    if role == "admin" && confirmed then Send(Cleanup) else Nothing
  }

  // ---------------------------------------------------------------------------
  // Dispatch of a click on the grid
  // ---------------------------------------------------------------------------

  datatype HourButton = HourButton(action: Option<string>, time: Option<string>)
  datatype AdminButton = AdminButton(action: Option<string>, cell: Option<Cell>)

  /** What the click's target has around it, by `closest(...)`. */
  datatype Click = Click(
    hourButton: Option<HourButton>,   // '.time-actions button'
    adminButton: Option<AdminButton>, // '.admin-actions button'
    cell: Option<Cell>,               // '.cell'
    onControl: bool                   // inside '.admin-actions', or a button or badge
  )

  /** The user's answers to the prompts a handler may raise. */
  datatype Answers = Answers(prompt: Option<string>, confirmed: bool)

  datatype Handler = OnHour | OnAdmin | OnCell | Ignored

  /** `wireGrid`'s listener: hour buttons first, then admin buttons, then the
      cell; the first two only for admins, the last only for everybody else. */
  function Dispatch(role: string, click: Click): (h: Handler)
    ensures h == OnHour <==> role == "admin" && click.hourButton.Some?
    ensures h == OnAdmin <==> role == "admin" && click.hourButton.None? && click.adminButton.Some?
    ensures h == OnCell <==> role != "admin" && click.cell.Some?
  {
    if click.hourButton.Some? && role == "admin" then OnHour
    else if click.adminButton.Some? && role == "admin" then OnAdmin
    else if click.cell.Some? && role != "admin" then OnCell
    else Ignored
  }

  /** A click on the grid, through the handler it is dispatched to. */
  function GridClick(role: string, click: Click, answers: Answers): (r: Outcome)
    ensures role != "admin" && r.Send? ==> r.request.Unreserve? || r.request.Reserve?
    ensures role == "admin" ==> r != Send(Unreserve) && !(r.Send? && r.request.Reserve?)
    ensures role != "admin" && click.cell.None? ==> r == Nothing
    ensures role != "admin" && click.cell.Some? && !click.onControl ==>
      var c := click.cell.value;
      !NotPositive(SlotIdOf(c.slotId)) && !Flag(c.mine) && Flag(c.active) && !Flag(c.taken) ==>
        r == Send(Reserve(SlotIdOf(c.slotId)))
    ensures role == "admin" && click.hourButton.Some? ==>
      var b := click.hourButton.value;
      r == HourAction(b.action, b.time, answers.prompt, answers.confirmed)
    ensures role == "admin" && click.hourButton.None? && click.adminButton.Some? ==>
      var b := click.adminButton.value;
      r == AdminActionClick(b.action, b.cell, answers.prompt)
    ensures role == "admin" && click.hourButton.None? && click.adminButton.None? ==> r == Nothing
  {
    match Dispatch(role, click)
    case OnHour =>
      var b := click.hourButton.value;
      HourAction(b.action, b.time, answers.prompt, answers.confirmed)
    case OnAdmin =>
      var b := click.adminButton.value;
      AdminActionClick(b.action, b.cell, answers.prompt)
    case OnCell => UserCellClick(click.cell.value, click.onControl)
    case Ignored => Nothing
  }
}

=== FILE: guards.dfy ===
/**
  The two route guards and the pages they protect. A guard either answers
  the request itself or hands it on to the next handler, never both: the
  result type has one constructor for each.
 */
module Guards {
  import opened Wrappers

  /** The user a login or a registration puts into the session. */
  datatype SessionUser = SessionUser(id: nat, email: string, role: string, firstName: string, lastName: string)

  /** What a guard answers with when it stops a request. */
  datatype Refusal =
    | RedirectTo(location: string)
    | Forbidden                       // status 403 with the text "Forbidden"

  datatype GuardResult = Next | Stop(refusal: Refusal)

  /** `requireAuth`: a request without a session user is sent to the login
      page; any other passes. */
  function RequireAuth(session: Option<SessionUser>): (r: GuardResult)
    ensures r.Next? <==> session.Some?
    ensures r.Stop? ==> r.refusal == RedirectTo("/login")
  {
    if session.None? then Stop(RedirectTo("/login")) else Next
  }

  /** `requireRole(role)`: only a session user holding exactly that role
      passes; everyone else, signed in or not, gets 403. */
  function RequireRole(role: string, session: Option<SessionUser>): (r: GuardResult)
    ensures r.Next? <==> session.Some? && session.value.role == role
    ensures r.Stop? ==> r.refusal == Forbidden
  {
    if session.Some? && session.value.role == role then Next else Stop(Forbidden)
  }

  /** Runs two guards in order: the second only sees requests the first let
      through. */
  function Then(first: GuardResult, second: GuardResult): (r: GuardResult)
    ensures r.Next? <==> first.Next? && second.Next?
    ensures first.Stop? ==> r == first
  {
    if first.Stop? then first else second
  }

  /** What a protected page answers. */
  datatype PageResult = Refused(refusal: Refusal) | Page(name: string)

  /** GET /dashboard: behind `requireAuth`. */
  function DashboardRoute(session: Option<SessionUser>): (r: PageResult)
    ensures r.Page? <==> session.Some?
    ensures r.Refused? ==> r.refusal == RedirectTo("/login")
  {
    match RequireAuth(session)
    case Next => Page("dashboard")
    case Stop(refusal) => Refused(refusal)
  }

  /** GET /admin: behind `requireAuth` and then `requireRole("admin")`. */
  function AdminRoute(session: Option<SessionUser>): (r: PageResult)
    ensures r.Page? <==> session.Some? && session.value.role == "admin"
    ensures session.None? ==> r == Refused(RedirectTo("/login"))
    ensures session.Some? && session.value.role != "admin" ==> r == Refused(Forbidden)
  {
    match Then(RequireAuth(session), RequireRole("admin", session))
    case Next => Page("admin")
    case Stop(refusal) => Refused(refusal)
  }
}

=== FILE: js_text.dfy ===
/**
  The two JavaScript string operations the client and the server lean on:
  `String.prototype.trim` and `String.prototype.toLowerCase`.
 */
module JsText {

  /** The characters `trim` strips: ECMAScript's WhiteSpace (tab, vertical
      tab, form feed, space, no-break space, byte-order mark and the other
      space separators of Unicode category Zs) and LineTerminator. */
  predicate IsSpace(c: char) {
    || c == '\t' || c == '\n' || c == '\U{000B}' || c == '\U{000C}' || c == '\r' || c == ' '
    || c == '\U{00A0}' || c == '\U{1680}' || ('\U{2000}' <= c <= '\U{200A}')
    || c == '\U{2028}' || c == '\U{2029}' || c == '\U{202F}' || c == '\U{205F}'
    || c == '\U{3000}' || c == '\U{FEFF}'
  }

  predicate AllSpace(s: string) {
    forall i :: 0 <= i < |s| ==> IsSpace(s[i])
  }

  /** The number of whitespace characters `s` starts with. */
  function LeadingSpace(s: string): (n: nat)
    ensures n <= |s|
    ensures AllSpace(s[..n])
    ensures n < |s| ==> !IsSpace(s[n])
  {
    if |s| == 0 || !IsSpace(s[0]) then 0
    else
      var n := 1 + LeadingSpace(s[1..]);
      assert s[..n] == [s[0]] + s[1..][..n - 1];
      n
  }

  /** Where the whitespace `s` ends with begins. */
  function TrailingStart(s: string): (m: nat)
    ensures m <= |s|
    ensures AllSpace(s[m..])
    ensures 0 < m ==> !IsSpace(s[m - 1])
  {
    if |s| == 0 || !IsSpace(s[|s| - 1]) then |s|
    else
      var m := TrailingStart(s[..|s| - 1]);
      assert s[m..] == s[..|s| - 1][m..] + [s[|s| - 1]];
      m
  }

  /** `trim`: the text between the leading and the trailing whitespace. */
  function Trim(s: string): (t: string)
    ensures |t| <= |s|
    ensures t == [] || (!IsSpace(t[0]) && !IsSpace(t[|t| - 1]))
  {
    var n, m := LeadingSpace(s), TrailingStart(s);
    if m <= n then [] else s[n..m]
  }

  /** `s` is `t` with whitespace before and after it, `t` starting and ending
      with a non-space: the trim of `s` is exactly `t`. */
  lemma TrimOfPadded(s: string, i: nat, j: nat)
    requires i < j <= |s|
    requires AllSpace(s[..i]) && AllSpace(s[j..])
    requires !IsSpace(s[i]) && !IsSpace(s[j - 1])
    ensures Trim(s) == s[i..j]
  {
  }

  /** Any trimmed text sits in its source between whitespace on both sides. */
  lemma TrimIsPadded(s: string)
    ensures var n := LeadingSpace(s);
      && n + |Trim(s)| <= |s|
      && Trim(s) == s[n..n + |Trim(s)|]
      && AllSpace(s[..n]) && AllSpace(s[n + |Trim(s)|..])
  {
  }

  /** `toLowerCase`, on the ASCII letters. */
  function LowerChar(c: char): char {
    if 'A' <= c <= 'Z' then (c as int + 32) as char else c
  }

  function ToLower(s: string): (r: string)
    ensures |r| == |s|
    ensures forall i :: 0 <= i < |s| ==> r[i] == LowerChar(s[i])
  {
    seq(|s|, i requires 0 <= i < |s| => LowerChar(s[i]))
  }

  /** Lowercasing is idempotent, so a lowercased email looks itself up. */
  lemma ToLowerIdempotent(s: string)
    ensures ToLower(ToLower(s)) == ToLower(s)
  {
  }
}

=== FILE: push_client.dfy ===
/**
  The browser side of push notifications: the guards in front of the
  subscribe request, the status line chosen from the server's answer, the
  unsubscribe request, and the status shown when the page loads.

  Browser APIs become inputs: whether the key meta tag is present, the
  answer to the permission request, whether service workers exist, the
  current subscription, and the status of the server's answer.
 */
module PushClient {
  import opened Wrappers
  import opened Base64Url

  /** What the client shows in its status line. */
  datatype Status =
    | NeedsRelogin          // 401 or 302: the session is gone
    | CsrfRejected          // 403: the CSRF token is stale
    | RouteMissing          // 404: the server has no /push/subscribe route
    | ServerError(code: int)
    | Enabled               // subscribe succeeded
    | MissingVapidKey       // no public key was rendered into the page
    | PermissionBlocked     // notification permission was not granted
    | NoServiceWorker       // the browser has no service workers
    | KeyRejected           // the key did not decode (`atob` threw)
    | NoNotificationApi     // `Notification` is not defined, so the call threw
    | RequestFailed         // the subscribe request itself was rejected (network error)
    | Disabled              // after unsubscribe
    | UnsubscribeFailed     // unsubscribe threw before reaching its end
    | Active                // on load: a subscription exists
    | Inactive              // on load: no subscription
    | Unsupported           // on load: no Notification or no service worker

  /** The browser facts `subscribe` depends on. */
  datatype SubscribeEnv = SubscribeEnv(
    vapidKey: Option<string>,  // content of the vapid-public-key meta tag
    notification: bool,        // the `Notification` global exists
    permission: string,        // answer of Notification.requestPermission()
    serviceWorker: bool,       // 'serviceWorker' in navigator
    fetchRejected: bool,       // the POST /push/subscribe promise rejected
    responseStatus: int        // status of the answer to POST /push/subscribe
  )

  /** What `subscribe` does: whether it posts the subscription, and the
      status line it leaves behind. */
  datatype SubscribeResult = SubscribeResult(requestSent: bool, status: Status)

  /** `fetch`'s `res.ok`: a status in the range 200-299. */
  predicate IsOk(status: int) {
    200 <= status <= 299
  }

  /** The key as the page holds it: `content || null` turns "" into null. */
  function VapidKey(meta: Option<string>): Option<string> {
    if meta.Some? && meta.value != "" then meta else None
  }

  /** The message for a subscribe request the server did not accept.
      Every status gets exactly one message. */
  function FailureStatus(code: int): (s: Status)
    ensures s == NeedsRelogin <==> code == 401 || code == 302
    ensures s == CsrfRejected <==> code == 403
    ensures s == RouteMissing <==> code == 404
    ensures s == ServerError(code) <==> code != 401 && code != 302 && code != 403 && code != 404
    ensures s.NeedsRelogin? || s.CsrfRejected? || s.RouteMissing? || s.ServerError?
  {
    if code == 401 || code == 302 then NeedsRelogin
    else if code == 403 then CsrfRejected
    else if code == 404 then RouteMissing
    else ServerError(code)
  }

  /** `subscribe`: the guards run in order (key, the permission request,
      permission, service worker, key decoding); only when all pass is the
      subscription posted, and then the server's answer picks the status.
      Everything that throws on the way ends in the catch, which shows the
      error's message. */
  function Subscribe(env: SubscribeEnv): (r: SubscribeResult)
    ensures r.requestSent <==>
      && env.vapidKey.Some? && env.vapidKey.value != ""
      && env.notification
      && env.permission == "granted"
      && env.serviceWorker
      && DecodeKey(env.vapidKey.value).Some?
    ensures env.vapidKey.None? || env.vapidKey == Some("") ==> r == SubscribeResult(false, MissingVapidKey)
    ensures env.vapidKey.Some? && env.vapidKey.value != "" && !env.notification ==>
      r == SubscribeResult(false, NoNotificationApi)
    ensures env.vapidKey.Some? && env.vapidKey.value != "" && env.notification && env.permission != "granted" ==>
      r == SubscribeResult(false, PermissionBlocked)
    ensures (env.vapidKey.Some? && env.vapidKey.value != "" && env.notification && env.permission == "granted"
             && !env.serviceWorker) ==> r == SubscribeResult(false, NoServiceWorker)
    ensures (env.vapidKey.Some? && env.vapidKey.value != "" && env.notification && env.permission == "granted"
             && env.serviceWorker && DecodeKey(env.vapidKey.value).None?) ==> r == SubscribeResult(false, KeyRejected)
    ensures r.status == Enabled ==> r.requestSent
    ensures r.requestSent && env.fetchRejected ==> r.status == RequestFailed
    ensures r.requestSent && !env.fetchRejected && IsOk(env.responseStatus) ==> r.status == Enabled
    ensures r.requestSent && !env.fetchRejected && !IsOk(env.responseStatus) ==>
      r.status == FailureStatus(env.responseStatus)
  {
    var key := VapidKey(env.vapidKey);
    if key.None? then SubscribeResult(false, MissingVapidKey)
    else if !env.notification then SubscribeResult(false, NoNotificationApi)
    else if env.permission != "granted" then SubscribeResult(false, PermissionBlocked)
    else if !env.serviceWorker then SubscribeResult(false, NoServiceWorker)
    else if DecodeKey(key.value).None? then SubscribeResult(false, KeyRejected)
    else if env.fetchRejected then SubscribeResult(true, RequestFailed)
    else if IsOk(env.responseStatus) then SubscribeResult(true, Enabled)
    else SubscribeResult(true, FailureStatus(env.responseStatus))
  }

  /** What `unsubscribe` does: the endpoint it posts, if any, and the status. */
  datatype UnsubscribeResult = UnsubscribeResult(request: Option<string>, status: Status)

  /** `unsubscribe`: the registration lookup needs the service-worker API,
      and when it is missing, or the registration or subscription lookup
      rejects, the catch shows the error and nothing is posted. Otherwise the
      endpoint is posted only when a registration and a subscription both
      exist; failures of that request are swallowed, so the status ends as
      Disabled. */
  function Unsubscribe(hasServiceWorker: bool, lookupFailed: bool, hasRegistration: bool,
                       subscription: Option<string>): (r: UnsubscribeResult)
    ensures !hasServiceWorker || lookupFailed ==> r == UnsubscribeResult(None, UnsubscribeFailed)
    ensures r.request.Some? <==> hasServiceWorker && !lookupFailed && hasRegistration && subscription.Some?
    ensures r.request.Some? ==> r.request == subscription
    ensures r.status == Disabled <==> hasServiceWorker && !lookupFailed
  {
    if !hasServiceWorker || lookupFailed then UnsubscribeResult(None, UnsubscribeFailed)
    else if hasRegistration && subscription.Some? then UnsubscribeResult(subscription, Disabled)
    else UnsubscribeResult(None, Disabled)
  }

  /** The status shown when the page loads. */
  function InitialStatus(hasNotification: bool, hasServiceWorker: bool, meta: Option<string>,
                         hasRegistration: bool, hasSubscription: bool): (s: Status)
    ensures s == Active <==>
      hasNotification && hasServiceWorker && VapidKey(meta).Some? && hasRegistration && hasSubscription
    ensures s == Unsupported <==> !hasNotification || !hasServiceWorker
    ensures s == MissingVapidKey <==> hasNotification && hasServiceWorker && VapidKey(meta).None?
    ensures s == Inactive <==>
      hasNotification && hasServiceWorker && VapidKey(meta).Some? && !(hasRegistration && hasSubscription)
  {
    if !hasNotification || !hasServiceWorker then Unsupported
    else if VapidKey(meta).None? then MissingVapidKey
    else if hasRegistration && hasSubscription then Active
    else Inactive
  }

  /** A key text whose length is 1 more than a multiple of 4 never reaches the
      server: the decoder rejects it first. */
  lemma SubscribeNeverSendsMalformedKey(env: SubscribeEnv)
    requires env.vapidKey.Some? && |env.vapidKey.value| % 4 == 1
    ensures !Subscribe(env).requestSent
  {
    DecodeKeyRejectsLengthOneModFour(env.vapidKey.value);
  }
}

=== FILE: push_store.dfy ===
/**
  The server side of push notifications: the subscription table, the
  reminder log, the selection of reminders that are due, and the purge of
  subscriptions the push service reports as gone.

  Tables are values: subscriptions are a map keyed by the table's unique
  pair (user, endpoint), so the pair holds at most one row by construction;
  the reminder log is a set of its unique triples; the reservations are the
  rows of their table in scan order and the slots a map from slot id.
 */
module PushStore {
  import opened Wrappers

  // ---------------------------------------------------------------------------
  // Subscriptions
  // ---------------------------------------------------------------------------

  datatype SubKey = SubKey(userId: int, endpoint: string)

  /** The non-key columns of `push_subscriptions`; None is NULL. */
  datatype SubRow = SubRow(p256dh: Option<string>, auth: Option<string>, userAgent: Option<string>)

  type Subscriptions = map<SubKey, SubRow>

  /** The `keys` object of a browser subscription; a missing field is None. */
  datatype Keys = Keys(p256dh: Option<string>, auth: Option<string>)

  /** The subscription the client posts; `keys` and `user_agent` may be missing. */
  datatype SubscriptionBody = SubscriptionBody(endpoint: string, keys: Option<Keys>, userAgent: Option<string>)

  /** The row stored for a posted subscription: `keys?.p256dh` and
      `keys?.auth` are NULL when missing, and `user_agent || null` turns a
      missing or empty agent into NULL. */
  function RowOf(body: SubscriptionBody): (row: SubRow)
    ensures body.keys.None? ==> row.p256dh.None? && row.auth.None?
    ensures body.keys.Some? ==> row.p256dh == body.keys.value.p256dh && row.auth == body.keys.value.auth
    ensures row.userAgent.None? <==> body.userAgent.None? || body.userAgent.value == ""
    ensures row.userAgent.Some? ==> row.userAgent == body.userAgent
  {
    var agent := if body.userAgent.Some? && body.userAgent.value != "" then body.userAgent else None;
    match body.keys
    case None => SubRow(None, None, agent)
    case Some(keys) => SubRow(keys.p256dh, keys.auth, agent)
  }

  /** `savePushSubscription`: insert, or overwrite the row of the same
      (user, endpoint) pair. No other row changes. */
  function SavePushSubscription(subs: Subscriptions, userId: int, body: SubscriptionBody): (r: Subscriptions)
    ensures r.Keys == subs.Keys + {SubKey(userId, body.endpoint)}
    ensures r[SubKey(userId, body.endpoint)] == RowOf(body)
    ensures forall k :: k in subs && k != SubKey(userId, body.endpoint) ==> r[k] == subs[k]
  {
    subs[SubKey(userId, body.endpoint) := RowOf(body)]
  }

  /** `removePushSubscription`: deletes the row of that pair only. */
  function RemovePushSubscription(subs: Subscriptions, userId: int, endpoint: string): (r: Subscriptions)
    ensures SubKey(userId, endpoint) !in r
    ensures forall k :: k != SubKey(userId, endpoint) ==> (k in r <==> k in subs)
    ensures forall k :: k in r ==> r[k] == subs[k]
  {
    subs - {SubKey(userId, endpoint)}
  }

  /** Saving the same pair again keeps only the last save. */
  lemma SaveOverwrites(subs: Subscriptions, userId: int, first: SubscriptionBody, second: SubscriptionBody)
    requires first.endpoint == second.endpoint
    ensures SavePushSubscription(SavePushSubscription(subs, userId, first), userId, second)
         == SavePushSubscription(subs, userId, second)
  {
  }

  /** Removing twice is removing once. */
  lemma RemoveIdempotent(subs: Subscriptions, userId: int, endpoint: string)
    ensures RemovePushSubscription(RemovePushSubscription(subs, userId, endpoint), userId, endpoint)
         == RemovePushSubscription(subs, userId, endpoint)
  {
  }

  /** Removing a pair undoes saving it. */
  lemma RemoveUndoesSave(subs: Subscriptions, userId: int, body: SubscriptionBody)
    ensures RemovePushSubscription(SavePushSubscription(subs, userId, body), userId, body.endpoint)
         == RemovePushSubscription(subs, userId, body.endpoint)
  {
  }

  /** What `getUserSubscriptions` hands to the push library. */
  datatype PushSubscription = PushSubscription(endpoint: string, keys: Keys)

  function Shape(k: SubKey, row: SubRow): PushSubscription {
    PushSubscription(k.endpoint, Keys(row.p256dh, row.auth))
  }

  /** `getUserSubscriptions(u)`: the rows of `u`, shaped for the push library.
      The query fixes no order, so the result is a set. */
  function GetUserSubscriptions(subs: Subscriptions, userId: int): (r: set<PushSubscription>)
    ensures forall p :: p in r <==>
      exists k :: k in subs && k.userId == userId && p == Shape(k, subs[k])
    ensures forall p, q :: p in r && q in r && p.endpoint == q.endpoint ==> p == q
  {
    set k | k in subs && k.userId == userId :: Shape(k, subs[k])
  }

  // ---------------------------------------------------------------------------
  // Reminders
  // ---------------------------------------------------------------------------

  /** A row of `reservations`. */
  datatype Reservation = Reservation(userId: int, slotId: int)

  /** The columns of `slots` the selection reads. */
  datatype Slot = Slot(active: bool, timeLabel: string)

  /** The unique triple of `push_reminders`. */
  datatype ReminderKey = ReminderKey(userId: int, slotId: int, scheduledFor: int)

  /** A row of the selection's result. */
  datatype DueReminder = DueReminder(userId: int, slotId: int, timeLabel: string, scheduledFor: int)

  /** The selection rule for one reservation: its slot exists, is active and
      is labelled with the target time, and no reminder was logged for the
      user, the slot and the scheduled minute. */
  predicate IsDue(res: Reservation, slots: map<int, Slot>, log: set<ReminderKey>,
                  target: string, scheduledFor: int) {
    && res.slotId in slots
    && slots[res.slotId].active
    && slots[res.slotId].timeLabel == target
    && ReminderKey(res.userId, res.slotId, scheduledFor) !in log
  }

  function DueOf(res: Reservation, slots: map<int, Slot>, scheduledFor: int): DueReminder
    requires res.slotId in slots
  {
    DueReminder(res.userId, res.slotId, slots[res.slotId].timeLabel, scheduledFor)
  }

  /** The reference selection: the due reservations, in table order. */
  function DueRows(rs: seq<Reservation>, slots: map<int, Slot>, log: set<ReminderKey>,
                   target: string, scheduledFor: int): seq<DueReminder>
  {
    if |rs| == 0 then []
    else
      var last := rs[|rs| - 1];
      DueRows(rs[..|rs| - 1], slots, log, target, scheduledFor)
        + (if IsDue(last, slots, log, target, scheduledFor) then [DueOf(last, slots, scheduledFor)] else [])
  }

  /** The reference selection returns exactly the due reservations. */
  lemma {:induction false} DueRowsMembers(rs: seq<Reservation>, slots: map<int, Slot>, log: set<ReminderKey>,
                                          target: string, scheduledFor: int, d: DueReminder)
    ensures d in DueRows(rs, slots, log, target, scheduledFor) <==>
      exists i :: 0 <= i < |rs| && IsDue(rs[i], slots, log, target, scheduledFor)
                  && d == DueOf(rs[i], slots, scheduledFor)
  {
    if |rs| > 0 {
      var init := rs[..|rs| - 1];
      DueRowsMembers(init, slots, log, target, scheduledFor, d);
      assert forall i :: 0 <= i < |init| ==> init[i] == rs[i];
    }
  }

  /** `findDueReminders`, the anti-join of the due reservations against the
      reminder log. The target label and the scheduled minute are inputs. */
  method FindDueReminders(reservations: seq<Reservation>, slots: map<int, Slot>, log: set<ReminderKey>,
                          target: string, scheduledFor: int) returns (due: seq<DueReminder>)
    ensures due == DueRows(reservations, slots, log, target, scheduledFor)
    ensures |due| <= |reservations|
    ensures forall d :: d in due ==> d.scheduledFor == scheduledFor && d.timeLabel == target
                                     && ReminderKey(d.userId, d.slotId, scheduledFor) !in log
  {
    due := [];
    var i := 0;
    while i < |reservations|
      invariant 0 <= i <= |reservations|
      invariant due == DueRows(reservations[..i], slots, log, target, scheduledFor)
      invariant |due| <= i
      invariant forall d :: d in due ==> d.scheduledFor == scheduledFor && d.timeLabel == target
                                         && ReminderKey(d.userId, d.slotId, scheduledFor) !in log
    {
      var res := reservations[i];
      assert reservations[..i + 1][..i] == reservations[..i];
      if IsDue(res, slots, log, target, scheduledFor) {
        due := due + [DueOf(res, slots, scheduledFor)];
      }
      i := i + 1;
    }
    assert reservations[..i] == reservations;
  }

  /** `markReminderSent`: insert the triple unless it is already logged. */
  function MarkReminderSent(log: set<ReminderKey>, userId: int, slotId: int, scheduledFor: int): (r: set<ReminderKey>)
    ensures forall k :: k in r <==> k in log || k == ReminderKey(userId, slotId, scheduledFor)
  {
    log + {ReminderKey(userId, slotId, scheduledFor)}
  }

  lemma MarkReminderSentIdempotent(log: set<ReminderKey>, userId: int, slotId: int, scheduledFor: int)
    ensures var once := MarkReminderSent(log, userId, slotId, scheduledFor);
      MarkReminderSent(once, userId, slotId, scheduledFor) == once
  {
  }

  /** After a reminder is logged, the selection for the same minute no longer
      returns that user and slot, and returns everything else it did before. */
  lemma MarkedReminderNotDue(rs: seq<Reservation>, slots: map<int, Slot>, log: set<ReminderKey>,
                             target: string, scheduledFor: int, userId: int, slotId: int, d: DueReminder)
    ensures var marked := MarkReminderSent(log, userId, slotId, scheduledFor);
      d in DueRows(rs, slots, marked, target, scheduledFor) <==>
        d in DueRows(rs, slots, log, target, scheduledFor) && !(d.userId == userId && d.slotId == slotId)
  {
    var marked := MarkReminderSent(log, userId, slotId, scheduledFor);
    DueRowsMembers(rs, slots, marked, target, scheduledFor, d);
    DueRowsMembers(rs, slots, log, target, scheduledFor, d);
  }

  // ---------------------------------------------------------------------------
  // Sending
  // ---------------------------------------------------------------------------

  /** A JavaScript value in an error's `statusCode` or `code` property. */
  datatype JsValue = Undefined | Number(n: int) | Text(s: string)

  predicate Truthy(v: JsValue) {
    match v
    case Undefined => false
    case Number(n) => n != 0
    case Text(s) => s != ""
  }

  /** What `webpush.sendNotification` threw. */
  datatype SendError = SendError(statusCode: JsValue, code: JsValue)

  /** `e?.statusCode || e?.code`. */
  function ErrorCode(e: SendError): JsValue {
    if Truthy(e.statusCode) then e.statusCode else e.code
  }

  /** The push service says the subscription is gone: the code is the
      number 404 or 410. */
  predicate Gone(e: SendError) {
    ErrorCode(e) == Number(404) || ErrorCode(e) == Number(410)
  }

  /** Which errors count as gone: a truthy `statusCode` decides alone, and
      only a missing, zero or empty one lets `code` speak. The comparison is
      strict, so the text "404" is not gone. */
  lemma GoneCases(e: SendError)
    ensures Gone(e) <==>
      if Truthy(e.statusCode) then e.statusCode in {Number(404), Number(410)}
      else e.code in {Number(404), Number(410)}
    ensures Gone(SendError(Number(410), Undefined))
    ensures !Gone(SendError(Number(500), Number(404)))
    ensures Gone(SendError(Number(0), Number(404)))
    ensures Gone(SendError(Text(""), Number(410)))
    ensures !Gone(SendError(Text("404"), Undefined))
  {
  }

  /** Some attempt among the first `n` failed as gone for `endpoint`. */
  predicate EndpointGone(endpoint: string, targets: seq<PushSubscription>, results: seq<Option<SendError>>, n: nat)
    requires n <= |targets| == |results|
  {
    exists j :: 0 <= j < n && targets[j].endpoint == endpoint && results[j].Some? && Gone(results[j].value)
  }

  /** The purge rule of `sendPushToUser`. Every subscription in `targets` is
      attempted in order; `results[i]` is the error the i-th attempt threw,
      or None when it was delivered. `targets` is what `getUserSubscriptions`
      returned for `userId`, each subscription once, in the order the query
      happened to give. A gone endpoint is deleted for every user; any other
      failure is only logged. */
  method SendPushToUser(subs: Subscriptions, userId: int, targets: seq<PushSubscription>,
                        results: seq<Option<SendError>>)
    returns (after: Subscriptions, attempted: seq<string>)
    requires forall p :: p in targets <==> p in GetUserSubscriptions(subs, userId)
    requires forall i, j :: 0 <= i < j < |targets| ==> targets[i] != targets[j]
    requires |results| == |targets|
    ensures |attempted| == |targets|
    ensures forall i :: 0 <= i < |targets| ==> attempted[i] == targets[i].endpoint
    ensures forall e :: e in attempted <==> SubKey(userId, e) in subs
    ensures forall i, j :: 0 <= i < j < |attempted| ==> attempted[i] != attempted[j]
    ensures forall k :: k in after <==> k in subs && !EndpointGone(k.endpoint, targets, results, |targets|)
    ensures forall k :: k in subs && k !in after ==> SubKey(userId, k.endpoint) in subs
    ensures forall k :: k in after ==> after[k] == subs[k]
  {
    after := subs;
    attempted := [];
    var i := 0;
    while i < |targets|
      invariant 0 <= i <= |targets|
      invariant |attempted| == i
      invariant forall j :: 0 <= j < i ==> attempted[j] == targets[j].endpoint
      invariant forall k :: k in after <==> k in subs && !EndpointGone(k.endpoint, targets, results, i)
      invariant forall k :: k in after ==> after[k] == subs[k]
    {
      var endpoint := targets[i].endpoint;
      attempted := attempted + [endpoint];
      if results[i].Some? && Gone(results[i].value) {
        after := map k | k in after && k.endpoint != endpoint :: after[k];
      }
      i := i + 1;
    }
    forall e | e in attempted
      ensures SubKey(userId, e) in subs
    {
      var i :| 0 <= i < |attempted| && attempted[i] == e;
      assert targets[i] in GetUserSubscriptions(subs, userId);
      var k :| k in subs && k.userId == userId && targets[i] == Shape(k, subs[k]);
      assert k == SubKey(userId, e);
    }
    forall e | SubKey(userId, e) in subs
      ensures e in attempted
    {
      var p := Shape(SubKey(userId, e), subs[SubKey(userId, e)]);
      assert p in GetUserSubscriptions(subs, userId);
      var j :| 0 <= j < |targets| && targets[j] == p;
      assert attempted[j] == e;
    }
    forall i, j | 0 <= i < j < |attempted|
      ensures attempted[i] != attempted[j]
    {
      assert targets[i] in GetUserSubscriptions(subs, userId);
      assert targets[j] in GetUserSubscriptions(subs, userId);
    }
  }
}

=== FILE: user_store.dfy ===
/**
  The account store: the `users` and `password_resets` tables and the six
  statements the server runs on them.

  A table is the sequence of its rows in scan order. Ids come from the
  tables' AUTOINCREMENT counters, so a new id is one more than the largest
  id the table ever handed out. The UNIQUE constraints on `users.email` and
  `password_resets.token` make an insert of a duplicate fail.
 */
module UserStore {
  import opened Wrappers

  /** A bcrypt hash, kept as the text the library produced. */
  type Hash = string

  /** A row of `users`. The name columns are NULL in rows written before
      they were added to the table. */
  datatype User = User(
    id: nat,
    email: string,
    passwordHash: Hash,
    role: string,
    createdAt: int,
    firstName: Option<string>,
    lastName: Option<string>
  )

  /** A row of `password_resets`; `expiresAt` is a time in milliseconds. */
  datatype ResetRow = ResetRow(id: nat, userId: nat, token: string, expiresAt: int, used: bool)

  /** Both tables, with the last id each AUTOINCREMENT counter gave out. */
  datatype Db = Db(users: seq<User>, resets: seq<ResetRow>, lastUserId: nat, lastResetId: nat)

  /** The constraint violations an insert can raise. */
  datatype DbError = DuplicateEmail | DuplicateToken

  // ---------------------------------------------------------------------------
  // Constraints
  // ---------------------------------------------------------------------------

  predicate UsersWellFormed(db: Db) {
    && (forall i :: 0 <= i < |db.users| ==> 0 < db.users[i].id <= db.lastUserId)
    && (forall i, j :: 0 <= i < j < |db.users| ==> db.users[i].id != db.users[j].id)
    && (forall i, j :: 0 <= i < j < |db.users| ==> db.users[i].email != db.users[j].email)
  }

  predicate ResetsWellFormed(db: Db) {
    && (forall i :: 0 <= i < |db.resets| ==> 0 < db.resets[i].id <= db.lastResetId)
    && (forall i, j :: 0 <= i < j < |db.resets| ==> db.resets[i].id != db.resets[j].id)
    && (forall i, j :: 0 <= i < j < |db.resets| ==> db.resets[i].token != db.resets[j].token)
  }

  /** The table constraints: primary keys below their counters and distinct,
      emails distinct, tokens distinct. */
  predicate Valid(db: Db) {
    UsersWellFormed(db) && ResetsWellFormed(db)
  }

  predicate HasEmail(db: Db, email: string) {
    exists i :: 0 <= i < |db.users| && db.users[i].email == email
  }

  predicate HasToken(db: Db, token: string) {
    exists i :: 0 <= i < |db.resets| && db.resets[i].token == token
  }

  // ---------------------------------------------------------------------------
  // Lookups
  // ---------------------------------------------------------------------------

  /** Index of the first user from `from` on whose email is `email`. */
  function FindEmail(users: seq<User>, email: string, from: nat): (r: Option<nat>)
    requires from <= |users|
    ensures r.Some? ==> from <= r.value < |users| && users[r.value].email == email
    ensures r.Some? ==> forall k :: from <= k < r.value ==> users[k].email != email
    ensures r.None? ==> forall k :: from <= k < |users| ==> users[k].email != email
    decreases |users| - from
  {
    if from == |users| then None
    else if users[from].email == email then Some(from)
    else FindEmail(users, email, from + 1)
  }

  /** Index of the first reset row from `from` on whose token is `token`. */
  function FindToken(resets: seq<ResetRow>, token: string, from: nat): (r: Option<nat>)
    requires from <= |resets|
    ensures r.Some? ==> from <= r.value < |resets| && resets[r.value].token == token
    ensures r.None? ==> forall k :: from <= k < |resets| ==> resets[k].token != token
    decreases |resets| - from
  {
    if from == |resets| then None
    else if resets[from].token == token then Some(from)
    else FindToken(resets, token, from + 1)
  }

  /** `userByEmail`: the row whose email is exactly `email` (no case folding
      at this layer), or null. */
  function UserByEmail(db: Db, email: string): (r: Option<User>)
    ensures r.Some? <==> HasEmail(db, email)
    ensures r.Some? ==> r.value in db.users && r.value.email == email
  {
    match FindEmail(db.users, email, 0)
    case None => None
    case Some(i) => Some(db.users[i])
  }

  /** `resetByToken`: the reset row carrying `token`, or null. */
  function ResetByToken(db: Db, token: string): (r: Option<ResetRow>)
    ensures r.Some? <==> HasToken(db, token)
    ensures r.Some? ==> r.value in db.resets && r.value.token == token
  {
    match FindToken(db.resets, token, 0)
    case None => None
    case Some(i) => Some(db.resets[i])
  }

  /** With distinct emails, the lookup returns the one row with that email. */
  lemma UserByEmailUnique(db: Db, i: nat)
    requires Valid(db) && i < |db.users|
    ensures UserByEmail(db, db.users[i].email) == Some(db.users[i])
  {
    var r := FindEmail(db.users, db.users[i].email, 0);
    assert r.Some?;
  }

  /** With distinct tokens, the lookup returns the one row with that token. */
  lemma ResetByTokenUnique(db: Db, i: nat)
    requires Valid(db) && i < |db.resets|
    ensures ResetByToken(db, db.resets[i].token) == Some(db.resets[i])
  {
    var r := FindToken(db.resets, db.resets[i].token, 0);
    assert r.Some?;
  }

  // ---------------------------------------------------------------------------
  // Statements
  // ---------------------------------------------------------------------------

  /** `insertUser`: appends a row with the next AUTOINCREMENT id and returns
      that id, or fails on the UNIQUE constraint of `email`. */
  function InsertUser(db: Db, email: string, hash: Hash, role: string, createdAt: int,
                      firstName: string, lastName: string): (r: Result<(Db, nat), DbError>)
    ensures r.Err? <==> HasEmail(db, email)
    ensures r.Err? ==> r.error == DuplicateEmail
    ensures r.Ok? ==>
      var (db', id) := r.value;
      && (forall k :: 0 <= k < |db.users| ==> db.users[k].id != id || !UsersWellFormed(db))
      && 0 < id
      && db'.users == db.users + [User(id, email, hash, role, createdAt, Some(firstName), Some(lastName))]
      && db'.resets == db.resets
      && db'.lastResetId == db.lastResetId
    ensures r.Ok? && Valid(db) ==> Valid(r.value.0)
  {
    if HasEmail(db, email) then Err(DuplicateEmail)
    else
      var id := db.lastUserId + 1;
      var row := User(id, email, hash, role, createdAt, Some(firstName), Some(lastName));
      Ok((db.(users := db.users + [row], lastUserId := id), id))
  }

  /** `insertReset`: appends an unused reset row with the next id, or fails on
      the UNIQUE constraint of `token`. */
  function InsertReset(db: Db, userId: nat, token: string, expiresAt: int): (r: Result<Db, DbError>)
    ensures r.Err? <==> HasToken(db, token)
    ensures r.Err? ==> r.error == DuplicateToken
    ensures r.Ok? ==>
      && |r.value.resets| == |db.resets| + 1
      && r.value.resets[..|db.resets|] == db.resets
      && var row := r.value.resets[|db.resets|];
         row.userId == userId && row.token == token && row.expiresAt == expiresAt && !row.used
    ensures r.Ok? ==> r.value.users == db.users && r.value.lastUserId == db.lastUserId
    ensures r.Ok? && Valid(db) ==> Valid(r.value)
  {
    if HasToken(db, token) then Err(DuplicateToken)
    else
      var id := db.lastResetId + 1;
      Ok(db.(resets := db.resets + [ResetRow(id, userId, token, expiresAt, false)], lastResetId := id))
  }

  /** Sets the hash of the rows whose id is `id`, row by row. */
  function SetHash(users: seq<User>, id: nat, hash: Hash): (r: seq<User>)
    ensures |r| == |users|
    ensures forall k :: 0 <= k < |users| ==>
      r[k] == (if users[k].id == id then users[k].(passwordHash := hash) else users[k])
  {
    if |users| == 0 then []
    else
      var head := if users[0].id == id then users[0].(passwordHash := hash) else users[0];
      [head] + SetHash(users[1..], id, hash)
  }

  /** `updateUserPassword`: only `password_hash` of the row with that id
      changes; every other row and field stays as it was. */
  function UpdateUserPassword(db: Db, userId: nat, hash: Hash): (r: Db)
    ensures |r.users| == |db.users|
    ensures forall k :: 0 <= k < |db.users| ==>
      && r.users[k].(passwordHash := db.users[k].passwordHash) == db.users[k]
      && (r.users[k].passwordHash != db.users[k].passwordHash ==> db.users[k].id == userId)
    ensures forall k :: 0 <= k < |db.users| && db.users[k].id == userId ==> r.users[k].passwordHash == hash
    ensures r.resets == db.resets && r.lastUserId == db.lastUserId && r.lastResetId == db.lastResetId
    ensures Valid(db) ==> Valid(r)
  {
    db.(users := SetHash(db.users, userId, hash))
  }

  /** Sets `used` on the rows whose id is `id`, row by row. */
  function SetUsed(resets: seq<ResetRow>, id: nat): (r: seq<ResetRow>)
    ensures |r| == |resets|
    ensures forall k :: 0 <= k < |resets| ==>
      r[k] == (if resets[k].id == id then resets[k].(used := true) else resets[k])
  {
    if |resets| == 0 then []
    else
      var head := if resets[0].id == id then resets[0].(used := true) else resets[0];
      [head] + SetUsed(resets[1..], id)
  }

  /** `markResetUsed`: sets `used` on that row only. */
  function MarkResetUsed(db: Db, resetId: nat): (r: Db)
    ensures |r.resets| == |db.resets|
    ensures forall k :: 0 <= k < |db.resets| ==>
      && r.resets[k].(used := db.resets[k].used) == db.resets[k]
      && (r.resets[k].used <==> db.resets[k].used || db.resets[k].id == resetId)
    ensures r.users == db.users && r.lastUserId == db.lastUserId && r.lastResetId == db.lastResetId
    ensures Valid(db) ==> Valid(r)
  {
    db.(resets := SetUsed(db.resets, resetId))
  }

  /** Marking a reset row used twice is the same as marking it once. */
  lemma MarkResetUsedIdempotent(db: Db, resetId: nat)
    ensures MarkResetUsed(MarkResetUsed(db, resetId), resetId) == MarkResetUsed(db, resetId)
  {
    var once := MarkResetUsed(db, resetId);
    var twice := MarkResetUsed(once, resetId);
    assert twice.resets == once.resets by {
      forall k | 0 <= k < |db.resets|
        ensures twice.resets[k] == once.resets[k]
      {
      }
    }
  }

  // ---------------------------------------------------------------------------
  // Schema
  // ---------------------------------------------------------------------------

  /** The columns `CREATE TABLE users` gives a new table. */
  const BaseUserColumns: seq<string> := ["id", "email", "password_hash", "role", "created_at"]

  /** Adds a column unless the table already has it. */
  function AddColumnIfMissing(columns: seq<string>, name: string): (r: seq<string>)
    ensures name in r
    ensures name in columns ==> r == columns
    ensures name !in columns ==> r == columns + [name]
  {
    if name in columns then columns else columns + [name]
  }

  /** The column step of `ensureSchema`: the users table is created with its
      base columns when absent, then `first_name` and `last_name` are added
      when missing. */
  function EnsureUserColumns(existing: Option<seq<string>>): (r: seq<string>)
    ensures "first_name" in r && "last_name" in r
    ensures existing.Some? ==> |existing.value| <= |r| <= |existing.value| + 2
    ensures existing.Some? ==> r[..|existing.value|] == existing.value
    ensures existing.Some? && "first_name" in existing.value && "last_name" in existing.value ==>
      r == existing.value
    ensures existing.Some? ==> forall c :: c in r ==> c in existing.value || c == "first_name" || c == "last_name"
    ensures existing.None? ==> r == BaseUserColumns + ["first_name", "last_name"]
  {
    var columns := existing.GetOr(BaseUserColumns);
    AddColumnIfMissing(AddColumnIfMissing(columns, "first_name"), "last_name")
  }

  /** Running the schema step twice is the same as running it once. */
  lemma EnsureUserColumnsIdempotent(existing: Option<seq<string>>)
    ensures EnsureUserColumns(Some(EnsureUserColumns(existing))) == EnsureUserColumns(existing)
  {
  }
}

=== FILE: wrappers.dfy ===
/** Failure-carrying datatypes shared by the modules of this model. */
module Wrappers {

  /** A value that may be absent: JavaScript's `null` / `undefined`. */
  datatype Option<+T> = None | Some(value: T) {

    /** JavaScript's `x ?? default` on an optional value. */
    function GetOr(default: T): T {
      match this
      case Some(v) => v
      case None => default
    }
  }

  /** The outcome of an operation that can fail with an error value. */
  datatype Result<+T, +E> = Ok(value: T) | Err(error: E)
}
